=== FILE: README.md ===
# OpenAI client core, modelled in Dafny

This project models the parts of the Swift `OpenAI` client that decide what the
caller sees:

- **The streaming chunk decoder** (`StreamingSession`). Each transport chunk
  is decoded as UTF-8 text and glued behind the reassembly buffer
  `previousChunkBuffer`. The result is trimmed and cut at newlines. The
  `data: ` lines have the marker removed and empty payloads dropped. Each
  remaining payload either:
  - fires `onReceiveContent`;
  - fires `onProcessingError`;
  - is skipped (the `[DONE]` sentinel);
  - or, when it is the last payload and fails both decoders, is held in
    the buffer for the next chunk.

  The model treats one chunk as a pure step `Step(buffer, text) -> Pass(buffer', emitted)`.
  `didReceive` and `didCompleteWithError` are modelled around that step.
- **Request completion** (`performRequest`, `performSpeechRequest`,
  `performStreamingRequest`):
  - A request that cannot be built goes straight to the completion handler
    with the build error, and nothing is sent.
  - `performRequest` decides its completion in this order: transport error,
    missing data, decoded result, decoded `APIErrorResponse`, then the
    result's own decode error.
  - `performSpeechRequest` has the same transport-error and missing-data
    cases, and otherwise returns the data undecoded.
  - `performStreamingRequest` reports each chunk's callbacks through
    `onResult`; its `completion` receives the error the session completes
    with.
  - The registry of live streaming sessions gains a session when a stream
    starts and loses every entry equal to it when the stream completes.
- **URL path assembly** (`buildURL`, `APIPath`, `withPath`):
  - The path is built from the base path, the API version and the endpoint.
  - The endpoint is trimmed of slashes first.
  - Empty parts are then dropped, and only after that are the base path and
    the version trimmed of slashes. A base path of slashes only therefore
    survives as an empty segment.
  - The remaining parts are joined by slashes behind a leading slash.

JSON decoding is a pair of decoder functions passed in as parameters (`Decoders`).
So is UTF-8 decoding of the chunk bytes. The network, URLSession and request
building are modelled only through their results: a `Result` for the built
request, and an optional error and optional data for a finished data task.

Modules:

| file | module | content |
|---|---|---|
| `wrappers.dfy` | `Wrappers` | `Option`, `Result` |
| `seqs.dfy` | `Seqs` | `filter` on sequences, and its laws: membership, order, counts, concatenation |
| `text.dfy` | `Text` | Foundation's character sets, `trimmingCharacters(in:)`, `components(separatedBy:)`, `joined(separator:)`, `replacingOccurrences(of:with: "")` |
| `streaming_session.dfy` | `StreamingSession` | the chunk step, `didReceive`, and `processJSON` as a loop |
| `streaming_properties.dfy` | `StreamingProperties` | callbacks versus candidates, the all-decode case, the buffer invariant, whole sessions |
| `streaming_frames.dfy` | `StreamingFrames`, `StreamingExamples` | well-formed event streams decode to their payloads; per-payload outcomes; fragments across chunks; concrete streams |
| `api_path.dfy` | `ApiPath`, `ApiPathExamples` | configuration, endpoint constants, `withPath`, `buildURL`'s path; concrete paths |
| `openai.dfy` | `OpenAI` | request completion, the build-failure path, the streaming-session registry |

## Model

| member | source | states |
|---|---|---|
| StreamingSession.Candidates | Sources/OpenAI/Private/StreamingSession.swift:63-70 | every payload handed to the decoders is non-empty and holds no newline character |
| StreamingSession.StripMarkers | Sources/OpenAI/Private/StreamingSession.swift:69 | the marker is removed from each data line separately, and the number and order of lines are kept |
| StreamingSession.Classify | Sources/OpenAI/Private/StreamingSession.swift:77-101 | only the last payload of a pass can be held, and it is held unchanged; no payload is reported as unknown content |
| StreamingSession.Held | Sources/OpenAI/Private/StreamingSession.swift:95-98 | the buffer is refilled exactly when the last payload is neither the sentinel nor empty and fails both the result decoder and the API-error decoder; it then holds that payload behind `data: ` |
| StreamingSession.Step | Sources/OpenAI/Private/StreamingSession.swift:56-104 | an empty chunk changes nothing and keeps the buffer; otherwise the buffer is cleared and refilled only with a last payload that failed both decoders; no payloads, or the sentinel first, report nothing; at most one callback per payload, never unknown content |
| StreamingSession.DidReceive | Sources/OpenAI/Private/StreamingSession.swift:46-52 | bytes that are not UTF-8 report unknown content once and keep the buffer; unknown content is reported exactly when the bytes are not UTF-8 |
| StreamingSession.ProcessJSON | Sources/OpenAI/Private/StreamingSession.swift:56-104 | the loop over `jsonObjects.enumerated()` that may overwrite the buffer at the last index ends with the same buffer and callbacks as `Step` |
| StreamingProperties.FiringIndices | Sources/OpenAI/Private/StreamingSession.swift:77-101 | the positions of the payloads that fire a callback are positions of the pass |
| StreamingProperties.FiringIncreasing | Sources/OpenAI/Private/StreamingSession.swift:77 | payloads fire in the order of `enumerated()`: the firing positions strictly increase |
| StreamingProperties.FiringComplete | Sources/OpenAI/Private/StreamingSession.swift:77-101 | a position is a firing position if and only if its payload's outcome is a callback |
| StreamingProperties.EmissionsMatchFiring | Sources/OpenAI/Private/StreamingSession.swift:77-101 | there are as many callbacks as firing payloads, and the k-th callback is the outcome of the k-th firing payload |
| StreamingProperties.EmissionsFollowCandidates | Sources/OpenAI/Private/StreamingSession.swift:77-101 | over a whole pass: the callbacks correspond one to one, in order, to the payloads whose outcome is a callback |
| StreamingProperties.PayloadsDecode | Sources/OpenAI/Private/StreamingSession.swift:88-91 | when every candidate other than the sentinel decodes, so does every payload kept after the sentinels are dropped |
| StreamingProperties.AllDecodedUpTo | Sources/OpenAI/Private/StreamingSession.swift:77-91 | when every non-sentinel candidate decodes, the first n candidates fire `onReceiveContent` once per non-sentinel payload, in order (its induction steps are PayloadsSnoc and EventsSnoc) |
| StreamingProperties.AllDecodedEventsInOrder | Sources/OpenAI/Private/StreamingSession.swift:56-91 | a chunk whose payloads all decode, not starting with the sentinel, fires exactly one event per payload in order, no error, and leaves the buffer empty |
| StreamingProperties.StepKeepsBufferWellFormed | Sources/OpenAI/Private/StreamingSession.swift:72-98 | a chunk step keeps the buffer either empty or one marker-tagged fragment on one line (the held case goes through TaggedFragmentWellFormed) |
| StreamingProperties.ReceiveKeepsBufferWellFormed | Sources/OpenAI/Private/StreamingSession.swift:46-52 | receiving any bytes, UTF-8 or not, keeps the buffer well formed |
| StreamingProperties.FeedConcat | Sources/OpenAI/Private/StreamingSession.swift:30 | chunks are handled one after the other through the one buffer: feeding two runs of chunks is feeding the second from where the first left the buffer, with the callbacks concatenated |
| StreamingProperties.FeedKeepsInvariant | Sources/OpenAI/Private/StreamingSession.swift:30 | a buffer property kept by every chunk holds after any number of chunks |
| StreamingProperties.SessionBufferWellFormed | Sources/OpenAI/Private/StreamingSession.swift:30 | from the empty initial buffer, the buffer is well formed after every sequence of chunks |
| StreamingProperties.SessionEndsWithOneCompletion | Sources/OpenAI/Private/StreamingSession.swift:42-44 | a session that receives chunks and then completes reports the chunks' callbacks in order and then exactly one `onComplete` carrying the transport error; a fragment left in the buffer is never reported |
| StreamingFrames.FramesDecode | Sources/OpenAI/Private/StreamingSession.swift:63-70 | decoding inverts framing: for payloads that are non-empty, on one line and free of the marker, and whose last one ends in a visible character, the candidates of their event stream, whatever whitespace follows, are the payloads themselves, in order |
| StreamingFrames.TrailingWhitespaceIsTrimmed | Sources/OpenAI/Private/StreamingSession.swift:63-64 | whitespace at the end of a chunk's last payload is lost: the glued text is trimmed before it is split, so a payload sent with trailing whitespace comes back without it |
| StreamingFrames.SentinelOnlyChunkIsSilent | Sources/OpenAI/Private/StreamingSession.swift:74-76 | a chunk holding only the sentinel reports nothing and leaves the buffer empty |
| StreamingFrames.OneEventChunk | Sources/OpenAI/Private/StreamingSession.swift:88-91 | a chunk whose only payload decodes reports exactly that one event and clears the buffer |
| StreamingFrames.ApiErrorPayload | Sources/OpenAI/Private/StreamingSession.swift:95-96 | a payload that decodes only as `APIErrorResponse` reports exactly that API error, never an event, and is not buffered |
| StreamingFrames.MalformedBeforeLast | Sources/OpenAI/Private/StreamingSession.swift:99-100 | a payload failing both decoders that is not the last reports the result decoder's error, and the payload after it is still decoded |
| StreamingFrames.FragmentHeld | Sources/OpenAI/Private/StreamingSession.swift:97-98 | a lone last payload failing both decoders is held back as its own data line, with nothing reported |
| StreamingFrames.FragmentCompleted | Sources/OpenAI/Private/StreamingSession.swift:63-98 | the rest of a held payload arriving in the next chunk is decoded together with it as one event, and the buffer is emptied |
| StreamingFrames.SplitPayloadRecovered | Sources/OpenAI/Private/StreamingSession.swift:97-98 | a payload cut in two by a chunk boundary, where the first part ends in a visible character, is held silently and then reported as one event, with no error |
| StreamingFrames.WhitespaceAtCutIsLost | Sources/OpenAI/Private/StreamingSession.swift:63-64 | when the cut falls right after whitespace, the chunk is trimmed before the fragment is held, so the whitespace at the cut is lost and the payload is reported as its two parts without it |
| StreamingExamples.OneEventThenSentinel | Sources/OpenAI/Private/StreamingSession.swift:74-91 | `data: {"id":"1"}`, a blank line and `data: [DONE]` in one chunk report exactly one event |
| StreamingExamples.OneEventInTwoChunks | Sources/OpenAI/Private/StreamingSession.swift:97-98 | the same event cut after `"id"` is held by the first chunk and reported once by the second |
| StreamingExamples.CutInsideMarkerLosesEvent | Sources/OpenAI/Private/StreamingSession.swift:63-68 | the decoder depends on where chunks are cut: a cut inside `data: ` loses an event that one chunk would report |
| StreamingExamples.MarkerInsidePayloadIsRemoved | Sources/OpenAI/Private/StreamingSession.swift:69 | `data: ` inside a payload is removed too, so the decoders see an altered payload |
| Text.Trim | Sources/OpenAI/Private/StreamingSession.swift:64 | the trimmed text neither starts nor ends with a stripped character and is a contiguous core of the input with only stripped characters around it |
| Text.TrimUnique | Sources/OpenAI/Private/StreamingSession.swift:64 | any core surrounded only by stripped characters, and not itself starting or ending with one, is the trimmed text |
| Text.TrimIdempotent | Sources/OpenAI/OpenAI.swift:248 | trimming twice is trimming once |
| Text.TrimIgnoresPadding | Sources/OpenAI/Private/StreamingSession.swift:64 | adding stripped characters on either side does not change the trimmed text |
| Text.SplitBy | Sources/OpenAI/Private/StreamingSession.swift:65 | splitting gives at least one piece, and no piece holds a separator |
| Text.SplitRebuilds | Sources/OpenAI/Private/StreamingSession.swift:65 | the pieces, interleaved with the separators that cut them, rebuild the text |
| Text.JoinSplits | Sources/OpenAI/OpenAI.swift:250 | joining pieces free of the separator and splitting again gives the pieces back |
| Text.RemoveOccurrences | Sources/OpenAI/Private/StreamingSession.swift:69 | removal never lengthens the text and adds no character |
| Text.RemoveAbsent | Sources/OpenAI/Private/StreamingSession.swift:69 | a text without the pattern is unchanged |
| Text.RemoveKeepsPrefix | Sources/OpenAI/Private/StreamingSession.swift:69 | a prefix in which no occurrence starts is kept as it is |
| Text.RemoveLeading | Sources/OpenAI/Private/StreamingSession.swift:69 | a leading occurrence of the pattern is removed |
| ApiPath.WithPath | Sources/OpenAI/OpenAI.swift:287-289 | the endpoint, then one slash, then the sub-path unchanged |
| ApiPath.PathComponents | Sources/OpenAI/OpenAI.swift:246-248 | at most three segments, none starting or ending with a slash |
| ApiPath.BuildPath | Sources/OpenAI/OpenAI.swift:250 | the path always starts with a slash |
| ApiPath.BuildURL | Sources/OpenAI/OpenAI.swift:239-250 | scheme, host and port come from the configuration unchanged, and the path is the one assembled from base path, version and endpoint, starting with a slash |
| ApiPath.PathComponentsCases | Sources/OpenAI/OpenAI.swift:246-248 | the segments are the trimmed base path, the trimmed version and the trimmed endpoint, each present exactly when it was non-empty before the late trim (the filter step is FilterThree) |
| ApiPath.EndpointSlashesIgnored | Sources/OpenAI/OpenAI.swift:246 | slashes before or after the endpoint do not change the path |
| ApiPath.BuildPathSplits | Sources/OpenAI/OpenAI.swift:246-250 | cutting the path after its leading slash at every slash gives the segments back, when there is a segment and none holds a slash |
| ApiPathExamples.VersionedPath | Sources/OpenAI/OpenAI.swift:246-250 | with no base path, and a version and endpoint that are non-empty with no slash at either end, a slash-led endpoint goes to `/<version>/<endpoint>` |
| ApiPathExamples.DefaultPath | Sources/OpenAI/OpenAI.swift:46-51 | with the default configuration, a slash-led endpoint that is otherwise non-empty with no slash at either end goes to `/v1/<endpoint>` |
| ApiPathExamples.DefaultChatsPath | Sources/OpenAI/OpenAI.swift:270 | the chat endpoint goes to `/v1/chat/completions` |
| ApiPathExamples.DefaultModelPath | Sources/OpenAI/OpenAI.swift:272 | for a non-empty id that does not end in a slash, `models.withPath(id)` is `/models/<id>` and goes to `/v1/models/<id>` |
| ApiPathExamples.ModelIdSlashesTrimmed | Sources/OpenAI/OpenAI.swift:246 | slashes after a model id are lost: `models.withPath(id + "/")` goes to `/v1/models/<id>`, because the endpoint is trimmed of slashes |
| ApiPathExamples.SlashBasePathAddsEmptySegment | Sources/OpenAI/OpenAI.swift:246-248 | a base path of slashes only survives the filter, is trimmed to an empty segment, and doubles the leading slash |
| ApiPathExamples.SlashEndpointDropped | Sources/OpenAI/OpenAI.swift:246-247 | an endpoint of slashes only is trimmed away before the filter and leaves no segment |
| OpenAI.ResponseOutcome | Sources/OpenAI/OpenAI.swift:167-179 | transport error first, then missing data; success, with the decoded value, exactly when the result decodes; the decoded API error exactly when the result fails and `APIErrorResponse` decodes; otherwise the result's own decode error |
| OpenAI.SpeechOutcome | Sources/OpenAI/OpenAI.swift:218-227 | success exactly when there is no transport error and there is data, and then the data is returned unchanged; otherwise the transport error, or missing data |
| OpenAI.SpeechFailsLikeRequest | Sources/OpenAI/OpenAI.swift:218-224 | the speech request fails exactly when the plain request fails before decoding, with a transport error or missing data, and with the same error |
| OpenAI.ResponseAgreesWithStream | Sources/OpenAI/Private/StreamingSession.swift:88-101 | a streamed payload and a response with the same body are decided alike, in the same order: an event when the result decodes, else the API error when `APIErrorResponse` decodes; where the response fails to decode, the last payload of a pass is held and any other payload reports the decode error |
| OpenAI.PerformRequest | Sources/OpenAI/OpenAI.swift:162-185 | one completion call; nothing is sent exactly when the request cannot be built, which is reported as the build error; otherwise exactly the built request is sent and the completion carries the decoded value, or else the error of the response, in the order transport error, missing data, API error, decode error |
| OpenAI.PerformSpeechRequest | Sources/OpenAI/OpenAI.swift:212-232 | one completion call; nothing is sent exactly when the request cannot be built, which is reported as the build error; otherwise exactly the built request is sent and the completion carries the data unchanged, or else the transport error, or else missing data |
| OpenAI.SpeechLaunchFailsLikeRequest | Sources/OpenAI/OpenAI.swift:212-232 | a speech request and a plain request with the same build result and transport answer send the same request, report the same build failure, and the speech request fails after sending exactly when the plain one fails to fetch, with the same error |
| OpenAI.OnResult | Sources/OpenAI/OpenAI.swift:194-199 | an event reaches `onResult` as a success, and every other callback as that failure |
| OpenAI.Unregister | Sources/OpenAI/OpenAI.swift:201 | the session is gone, and every other session is present exactly when it was before |
| OpenAI.UnregisterKeepsOthers | Sources/OpenAI/OpenAI.swift:201 | the other sessions keep their order and their multiplicity, and every entry for the session is removed |
| OpenAI.UnregisterIdempotent | Sources/OpenAI/OpenAI.swift:201 | removing a session twice is removing it once |
| OpenAI.StartStream | Sources/OpenAI/OpenAI.swift:188-209 | a request that cannot be built is reported once and registers nothing; otherwise the session is appended and nothing is reported yet; the registry afterwards holds exactly the old sessions and, on a successful build, the new one |
| OpenAI.CompleteStream | Sources/OpenAI/OpenAI.swift:200-203 | the registry afterwards holds exactly the old sessions other than this one, and the caller receives the session's error unchanged |
| OpenAI.StreamLifecycleRestoresRegistry | Sources/OpenAI/OpenAI.swift:200-205 | starting and then completing a new session leaves the registry as it was |

## Left out

- Networking: URLSession, data tasks, `resume()`, delegate queues and the `[weak self]` capture are not modelled. A finished data task is its optional error and optional data. A streaming transport is a sequence of chunk and close deliveries.
- JSON decoding (`JSONDecoder`, `APIErrorResponse`): the two decoders are function parameters. The model does not know which texts decode.
- UTF-8 decoding of chunk bytes (`String(data:encoding:)`) is a function parameter.
- The re-encoding guard `jsonContent.data(using: .utf8)` (StreamingSession.swift lines 82-86) is not modelled. A Swift string always encodes as UTF-8, so that branch cannot fire.
- The debug `print` calls in `processJSON` have no observable effect and are left out.
- `hasPrefix`, `!=` and `isEmpty` on Swift strings compare grapheme clusters with canonical equivalence. The model compares `char` sequences, with no Unicode normalisation.
- `URLComponents`: the model stops at the scheme, host, port and path handed to it. Percent-encoding and the `URL(fileURLWithPath: "")` fallback for an invalid URL are not modelled.
- `Configuration.timeoutInterval` and the token and organization headers are only passed on to `build`. Building a request (`URLRequestBuildable.build`) is an input: a `Result` of the request or the build error.
- The thread-safe registry (`ArrayWithThreadSafety`) is modelled as a plain sequence with no concurrency. `session.perform()` runs before `streamingSessions.append(session)`, but the model appends at once. So a session that completes before it is appended is not modelled.
- The one-line public endpoint methods (`chats`, `images`, `embeddings`, …) only pick a path constant and a result type. They are left out; the path constants themselves are modelled.
- Text.RemoveOccurrences: follows the code in also removing `data: ` inside a payload, not only in front of it. StreamingExamples.MarkerInsidePayloadIsRemoved shows the effect.
- StreamingSession.Step: the decoder depends on where chunk boundaries fall. A cut inside the `data: ` marker loses an event, as StreamingExamples.CutInsideMarkerLosesEvent shows. The step therefore has no "chunking does not matter" law.
- StreamingFrames.FramesDecode: covers event streams written one `data:` line per event and separated by blank lines. Other Server-Sent Events fields (`event:`, `id:`, comments) are not data lines and are simply dropped by the code. The lemma also assumes the last payload ends in a visible character: the code trims the whole glued text before splitting it, so trailing whitespace on the last payload of a chunk is trimmed away and that payload comes back without it, as StreamingFrames.TrailingWhitespaceIsTrimmed shows.
- StreamingFrames.SplitPayloadRecovered: assumes the first part of the cut payload ends in a visible character. The code trims the glued text before it holds the fragment, so a cut right after a space or newline loses that character. StreamingFrames.WhitespaceAtCutIsLost shows the effect.
- ApiPathExamples.DefaultModelPath: holds for ids that are non-empty and do not end in a slash. A trailing slash on an id is trimmed together with the endpoint, as ApiPathExamples.ModelIdSlashesTrimmed shows.
- OpenAI.StartStream: `completion` is optional in `performStreamingRequest` (OpenAI.swift lines 188 and 207). The model assumes one is given, so "reported once" means "reported once when a completion handler is present".

=== FILE: api_path.dfy ===
/** Where the client sends its requests (Sources/OpenAI/OpenAI.swift): the
    configuration, the endpoint paths (`APIPath`) and how `buildURL` assembles
    the URL path from them. */
module ApiPath {
  import opened Wrappers
  import opened Text
  import Seqs

  /** `OpenAI.Configuration`, without the request timeout. */
  datatype Configuration = Configuration(
    token: string,
    organizationIdentifier: Option<string>,
    host: string,
    port: int,
    scheme: string,
    basePath: string,
    apiVersion: string)

  /** `Configuration(token:)` with every other argument left at its
      default. */
  function DefaultConfiguration(token: string): Configuration {
    Configuration(token, None, "api.openai.com", 443, "https", "", "v1")
  }

  // ---------------------------------------------------------------------
  // Endpoint paths (`APIPath`)
  // ---------------------------------------------------------------------

  const Embeddings: string := "/embeddings"
  const Chats: string := "/chat/completions"
  const Models: string := "/models"
  const Moderations: string := "/moderations"
  const AudioSpeech: string := "/audio/speech"
  const AudioTranscriptions: string := "/audio/transcriptions"
  const AudioTranslations: string := "/audio/translations"
  const Images: string := "/images/generations"
  const ImageEdits: string := "/images/edits"
  const ImageVariations: string := "/images/variations"

  /** `APIPath.withPath`: the endpoint, a slash, then the sub-path, which is
      taken as it is. */
  function WithPath(endpoint: string, path: string): (r: string)
    ensures |r| == |endpoint| + 1 + |path|
    ensures r[..|endpoint|] == endpoint && r[|endpoint|] == '/' && r[|endpoint| + 1..] == path
  {
    endpoint + "/" + path
  }

  // ---------------------------------------------------------------------
  // Path assembly (`buildURL(path:)`)
  // ---------------------------------------------------------------------

  function TrimSlashes(s: string): string {
    Trim(s, IsSlash)
  }

  /** Each component with its leading and trailing slashes trimmed. */
  function TrimEach(xs: seq<string>): (r: seq<string>)
    ensures |r| == |xs|
    ensures forall i :: 0 <= i < |xs| ==> r[i] == TrimSlashes(xs[i])
  {
    seq(|xs|, i requires 0 <= i < |xs| => TrimSlashes(xs[i]))
  }

  /** The path segments: base path, API version and endpoint, in that order.
      The endpoint is trimmed before empty components are dropped; the base
      path and the version only after, so a base path of slashes survives as
      an empty segment. */
  function PathComponents(c: Configuration, path: string): (r: seq<string>)
    ensures |r| <= 3
    ensures forall i :: 0 <= i < |r| ==> |r[i]| == 0 || (!IsSlash(r[i][0]) && !IsSlash(r[i][|r[i]| - 1]))
  {
    TrimEach(Seqs.Filter([c.basePath, c.apiVersion, TrimSlashes(path)], NonEmpty))
  }

  /** `components.path`: a slash, then the segments joined by slashes. */
  function BuildPath(c: Configuration, path: string): (r: string)
    ensures |r| > 0 && r[0] == '/'
  {
    "/" + Join(PathComponents(c, path), '/')
  }

  /** What `buildURL` hands to `URLComponents`. */
  datatype UrlParts = UrlParts(scheme: string, host: string, port: int, path: string)

  /** `buildURL(path:)`, up to `URLComponents`: scheme, host and port come
      from the configuration unchanged, and the path is the assembled one. */
  function BuildURL(c: Configuration, path: string): (r: UrlParts)
    ensures r.scheme == c.scheme && r.host == c.host && r.port == c.port
    ensures r.path == BuildPath(c, path)
    ensures |r.path| > 0 && r.path[0] == '/'
  {
    UrlParts(c.scheme, c.host, c.port, BuildPath(c, path))
  }

  /** The non-empty ones of three components, in order. */
  function Present(x: string): seq<string> {
    if x != "" then [x] else []
  }

  /** One more component is kept exactly when it is not empty. */
  lemma FilterSnoc(xs: seq<string>, x: string)
    ensures Seqs.Filter(xs + [x], NonEmpty) == Seqs.Filter(xs, NonEmpty) + Present(x)
  {
    assert (xs + [x])[..|xs|] == xs;
  }

  lemma FilterThree(b: string, v: string, p: string)
    ensures Seqs.Filter([b, v, p], NonEmpty) == Present(b) + Present(v) + Present(p)
  {
    FilterSnoc([], b);
    assert [] + [b] == [b];
    FilterSnoc([b], v);
    assert [b] + [v] == [b, v];
    FilterSnoc([b, v], p);
    assert [b, v] + [p] == [b, v, p];
  }

  lemma TrimEachConcat(xs: seq<string>, ys: seq<string>)
    ensures TrimEach(xs + ys) == TrimEach(xs) + TrimEach(ys)
  {
  }

  /** The segments listed case by case: each of base path, version and
      trimmed endpoint appears, in that order, exactly when it was not
      empty before the late trim. */
  lemma PathComponentsCases(c: Configuration, path: string)
    ensures PathComponents(c, path)
         == TrimEach(Present(c.basePath)) + TrimEach(Present(c.apiVersion)) + Present(TrimSlashes(path))
  {
    var b, v, p := c.basePath, c.apiVersion, TrimSlashes(path);
    FilterThree(b, v, p);
    TrimEachConcat(Present(b) + Present(v), Present(p));
    TrimEachConcat(Present(b), Present(v));
    TrimSlashesIdempotent(path);
    assert TrimEach(Present(p)) == Present(p);
  }

  lemma TrimSlashesIdempotent(s: string)
    ensures TrimSlashes(TrimSlashes(s)) == TrimSlashes(s)
  {
    TrimIdempotent(s, IsSlash);
  }

  /** Slashes around the endpoint do not matter. */
  lemma EndpointSlashesIgnored(c: Configuration, before: string, path: string, after: string)
    requires forall j :: 0 <= j < |before| ==> IsSlash(before[j])
    requires forall j :: 0 <= j < |after| ==> IsSlash(after[j])
    ensures BuildPath(c, before + path + after) == BuildPath(c, path)
  {
    TrimIgnoresPadding(before, path, after, IsSlash);
  }

  /** The path is a round trip of its segments: cutting it at its slashes
      gives back the segments, when there is at least one and none holds a
      slash inside. */
  lemma {:induction false} BuildPathSplits(c: Configuration, path: string)
    requires |PathComponents(c, path)| > 0
    requires forall i, j :: 0 <= i < |PathComponents(c, path)| && 0 <= j < |PathComponents(c, path)[i]|
               ==> !IsSlash(PathComponents(c, path)[i][j])
    ensures SplitBy(BuildPath(c, path)[1..], IsSlash) == PathComponents(c, path)
  {
    JoinSplits(PathComponents(c, path), '/', IsSlash);
  }
}

/** Concrete paths, and the cases where the order of trimming and filtering
    shows. */
module ApiPathExamples {
  import opened Text
  import opened ApiPath

  /** A text that does not start or end with a slash is its own trim. */
  lemma TrimSlashesUnchanged(s: string)
    requires s != "" && !IsSlash(s[0]) && !IsSlash(s[|s| - 1])
    ensures TrimSlashes(s) == s
  {
    assert s[0..|s|] == s;
    TrimUnique(s, IsSlash, 0, |s|);
  }

  /** A leading slash is trimmed from an endpoint that does not end in one. */
  lemma TrimLeadingSlash(s: string)
    requires s != "" && !IsSlash(s[0]) && !IsSlash(s[|s| - 1])
    ensures TrimSlashes("/" + s) == s
  {
    var t := "/" + s;
    assert t[1..|t|] == s;
    TrimUnique(t, IsSlash, 1, |t|);
  }

  lemma JoinTwo(x: string, y: string, sep: char)
    ensures Join([x, y], sep) == x + [sep] + y
  {
    var seps := seq(1, _ => sep);
    assert [x, y][1..] == [y];
    assert Interleave([y], seps[1..]) == y;
  }

  lemma JoinThree(x: string, y: string, z: string, sep: char)
    ensures Join([x, y, z], sep) == x + [sep] + y + [sep] + z
  {
    var seps := seq(2, _ => sep);
    assert [x, y, z][1..] == [y, z];
    assert [y, z][1..] == [z];
    assert seps[1..][1..] == [];
    assert Interleave([z], seps[1..][1..]) == z;
    assert Interleave([y, z], seps[1..]) == y + [sep] + z;
  }

  /** The path once its segments are known. */
  lemma PathOfComponents(c: Configuration, path: string, segs: seq<string>)
    requires PathComponents(c, path) == segs
    ensures BuildPath(c, path) == "/" + Join(segs, '/')
  {
  }

  /** The segments when the base path is empty and the version and the
      endpoint need no trimming. */
  lemma {:induction false} VersionedComponents(c: Configuration, endpoint: string)
    requires c.basePath == ""
    requires c.apiVersion != "" && !IsSlash(c.apiVersion[0]) && !IsSlash(c.apiVersion[|c.apiVersion| - 1])
    requires endpoint != "" && !IsSlash(endpoint[0]) && !IsSlash(endpoint[|endpoint| - 1])
    ensures PathComponents(c, "/" + endpoint) == [c.apiVersion, endpoint]
  {
    var v := c.apiVersion;
    PathComponentsCases(c, "/" + endpoint);
    TrimLeadingSlash(endpoint);
    TrimSlashesUnchanged(v);
    TrimEachOne(v);
    assert Present(c.basePath) == [];
    assert Present(v) == [v];
    assert Present(TrimSlashes("/" + endpoint)) == [endpoint];
    assert TrimEach(Present(v)) == [v];
    ListOfTwo(v, endpoint);
  }

  /** With an empty base path and a version that needs no trimming, the path
      is the version and the endpoint, whatever slashes surround the
      endpoint. */
  lemma {:induction false} VersionedPath(c: Configuration, endpoint: string)
    requires c.basePath == ""
    requires c.apiVersion != "" && !IsSlash(c.apiVersion[0]) && !IsSlash(c.apiVersion[|c.apiVersion| - 1])
    requires endpoint != "" && !IsSlash(endpoint[0]) && !IsSlash(endpoint[|endpoint| - 1])
    ensures BuildPath(c, "/" + endpoint) == "/" + c.apiVersion + "/" + endpoint
  {
    VersionedComponents(c, endpoint);
    PathOfComponents(c, "/" + endpoint, [c.apiVersion, endpoint]);
    JoinTwo(c.apiVersion, endpoint, '/');
    Regroup("/", c.apiVersion, "/", endpoint);
  }

  /** Under the default configuration every endpoint that needs no
      trimming lands under `/v1`. */
  lemma DefaultPath(c: Configuration, endpoint: string)
    requires c == DefaultConfiguration(c.token)
    requires endpoint != "" && !IsSlash(endpoint[0]) && !IsSlash(endpoint[|endpoint| - 1])
    ensures BuildPath(c, "/" + endpoint) == "/" + "v1" + "/" + endpoint
  {
    VersionedPath(c, endpoint);
  }

  /** The default configuration sends chat completions to
      `/v1/chat/completions`: the slash inside the endpoint is kept. */
  lemma DefaultChatsPath(c: Configuration)
    requires c == DefaultConfiguration(c.token)
    ensures BuildPath(c, Chats) == "/v1/chat/completions"
  {
    ChatsText("chat/completions");
    ChatsPathText("chat/completions", "/v1/chat/completions");
    DefaultPath(c, "chat/completions");
  }

  /** One model is fetched from `/v1/models/<id>` for an id that does not
      end with a slash. */
  lemma DefaultModelPath(c: Configuration, id: string)
    requires c == DefaultConfiguration(c.token)
    requires id != "" && !IsSlash(id[|id| - 1])
    ensures WithPath(Models, id) == "/models/" + id
    ensures BuildPath(c, WithPath(Models, id)) == "/v1/models/" + id
  {
    var endpoint := "models/" + id;
    ModelsText(id, endpoint, "/v1/models/");
    DefaultPath(c, endpoint);
  }

  /** Slashes after a model id are lost: the endpoint is trimmed of slashes
      before the path is built, so `id/` goes to `/v1/models/<id>`. */
  lemma ModelIdSlashesTrimmed(c: Configuration, id: string, slashes: string)
    requires c == DefaultConfiguration(c.token)
    requires id != "" && !IsSlash(id[|id| - 1])
    requires forall j :: 0 <= j < |slashes| ==> IsSlash(slashes[j])
    ensures BuildPath(c, WithPath(Models, id + slashes)) == "/v1/models/" + id
  {
    var w := WithPath(Models, id);
    assert WithPath(Models, id + slashes) == "" + w + slashes;
    EndpointSlashesIgnored(c, "", w, slashes);
    DefaultModelPath(c, id);
  }

  /** A base path of slashes is kept as an empty segment: the path then
      starts with two slashes. */
  lemma SlashBasePathAddsEmptySegment(c: Configuration, endpoint: string)
    requires c.basePath != "" && forall j :: 0 <= j < |c.basePath| ==> IsSlash(c.basePath[j])
    requires c.apiVersion != "" && !IsSlash(c.apiVersion[0]) && !IsSlash(c.apiVersion[|c.apiVersion| - 1])
    requires endpoint != "" && !IsSlash(endpoint[0]) && !IsSlash(endpoint[|endpoint| - 1])
    ensures BuildPath(c, "/" + endpoint) == "//" + c.apiVersion + "/" + endpoint
  {
    SlashBaseComponents(c, endpoint);
    PathOfComponents(c, "/" + endpoint, ["", c.apiVersion, endpoint]);
    JoinThree("", c.apiVersion, endpoint, '/');
    LeadingEmptySegment(c.apiVersion, endpoint);
  }

  /** A text of slashes only trims to nothing. */
  lemma TrimAllSlashes(s: string)
    requires forall j :: 0 <= j < |s| ==> IsSlash(s[j])
    ensures TrimSlashes(s) == ""
  {
    TrimUnique(s, IsSlash, 0, 0);
  }

  lemma SlashBaseComponents(c: Configuration, endpoint: string)
    requires c.basePath != "" && forall j :: 0 <= j < |c.basePath| ==> IsSlash(c.basePath[j])
    requires c.apiVersion != "" && !IsSlash(c.apiVersion[0]) && !IsSlash(c.apiVersion[|c.apiVersion| - 1])
    requires endpoint != "" && !IsSlash(endpoint[0]) && !IsSlash(endpoint[|endpoint| - 1])
    ensures PathComponents(c, "/" + endpoint) == ["", c.apiVersion, endpoint]
  {
    var b, v := c.basePath, c.apiVersion;
    PathComponentsCases(c, "/" + endpoint);
    TrimLeadingSlash(endpoint);
    TrimSlashesUnchanged(v);
    TrimAllSlashes(b);
    TrimEachOne(b);
    TrimEachOne(v);
    assert Present(b) == [b];
    assert Present(v) == [v];
    assert Present(TrimSlashes("/" + endpoint)) == [endpoint];
    assert TrimEach(Present(b)) == [""];
    assert TrimEach(Present(v)) == [v];
    ListOfThree("", v, endpoint);
  }

  /** An endpoint of slashes only is dropped, unlike such a base path. */
  lemma SlashEndpointDropped(c: Configuration, endpoint: string)
    requires forall j :: 0 <= j < |endpoint| ==> IsSlash(endpoint[j])
    ensures PathComponents(c, endpoint) == PathComponents(c, "")
  {
    EndpointSlashesIgnored(c, endpoint, "", "");
    assert endpoint + "" + "" == endpoint;
  }

  // ---------------------------------------------------------------------
  // Proof steps. Each lemma below rewrites one concrete text or regroups
  // one concatenation. They are kept apart so that the lemmas above never
  // see a string literal or a long concatenation, which the verifier
  // otherwise unfolds character by character.
  // ---------------------------------------------------------------------

  lemma Regroup(a: string, b: string, c: string, d: string)
    ensures a + (b + c + d) == a + b + c + d
  {
  }

  lemma ListOfTwo(x: string, y: string)
    ensures TrimEach([]) + [x] + [y] == [x, y]
  {
  }

  lemma LeadingEmptySegment(v: string, e: string)
    ensures "/" + ("" + ['/'] + v + ['/'] + e) == "//" + v + "/" + e
  {
  }

  lemma ListOfThree(x: string, y: string, z: string)
    ensures [x] + [y] + [z] == [x, y, z]
  {
  }

  lemma TrimEachOne(x: string)
    ensures TrimEach([x]) == [TrimSlashes(x)]
  {
  }

  lemma ChatsText(endpoint: string)
    requires endpoint == "chat/completions"
    ensures endpoint != "" && !IsSlash(endpoint[0]) && !IsSlash(endpoint[|endpoint| - 1])
    ensures Chats == "/" + endpoint
  {
  }

  lemma ChatsPathText(endpoint: string, expected: string)
    requires endpoint == "chat/completions" && expected == "/v1/chat/completions"
    ensures expected == "/" + "v1" + "/" + endpoint
  {
  }

  lemma ModelsText(id: string, endpoint: string, prefix: string)
    requires id != "" && !IsSlash(id[|id| - 1])
    requires endpoint == "models/" + id && prefix == "/v1/models/"
    ensures endpoint != "" && !IsSlash(endpoint[0]) && !IsSlash(endpoint[|endpoint| - 1])
    ensures WithPath(Models, id) == "/" + endpoint
    ensures WithPath(Models, id) == "/models/" + id
    ensures prefix + id == "/" + "v1" + "/" + endpoint
  {
    assert endpoint[|endpoint| - 1] == id[|id| - 1];
    assert Models + "/" == "/models/";
  }
}

=== FILE: openai.dfy ===
/** Completing requests in the `OpenAI` client (Sources/OpenAI/OpenAI.swift):
    how a finished data task is turned into the completion's `Result`, what
    a request that cannot be built leads to, and the registry of live
    streaming sessions.

    The network is not modelled: building a request, running a data task and
    decoding JSON are parameters. */
module OpenAI {
  import opened Wrappers
  import Seqs
  import opened StreamingSession

  // ---------------------------------------------------------------------
  // Completing a request
  // ---------------------------------------------------------------------

  /** Why a sent request brought back nothing: the transport failed, or it
      completed without data (`OpenAIError.emptyData`). */
  datatype FetchError<T> = Transport(transportError: T) | EmptyData

  /** Why a response did not decode: the fetch failed, the body decoded as
      an `APIErrorResponse`, or neither decoder accepted it. */
  datatype ResponseError<T, E, D> =
    | Fetch(fetchError: FetchError<T>)
    | Api(apiError: E)
    | Decoding(decodeError: D)

  /** The error a request's completion receives: the request could not be
      built, or it was sent and failed with `error`. */
  datatype RequestError<B, X> = BuildFailed(buildError: B) | Sent(error: X)

  /** The data task's completion handler in `performRequest`: a transport
      error wins, then missing data, then the decoded result, then the
      decoded `APIErrorResponse`, and last the result's own decode error. */
  function ResponseOutcome<In, R, E, D, T>(error: Option<T>, data: Option<In>, dec: Decoders<In, R, E, D>)
    : (r: Result<R, ResponseError<T, E, D>>)
    ensures error.Some? ==> r == Failure(Fetch(Transport(error.value)))
    ensures error.None? && data.None? ==> r == Failure(Fetch(EmptyData))
    ensures r.Success? <==> error.None? && data.Some? && dec.result(data.value).Success?
    ensures r.Success? ==> r.value == dec.result(data.value).value
    ensures r.Failure? && r.error.Api? <==>
              error.None? && data.Some? && dec.result(data.value).Failure? && dec.apiError(data.value).Some?
    ensures r.Failure? && r.error.Api? ==> r.error.apiError == dec.apiError(data.value).value
    ensures r.Failure? && r.error.Decoding? <==>
              error.None? && data.Some? && dec.result(data.value).Failure? && dec.apiError(data.value).None?
    ensures r.Failure? && r.error.Decoding? ==> dec.result(data.value) == Failure(r.error.decodeError)
  {
    match error
    case Some(e) => Failure(Fetch(Transport(e)))
    case None =>
      match data
      case None => Failure(Fetch(EmptyData))
      case Some(d) =>
        match dec.result(d)
        case Success(x) => Success(x)
        case Failure(decodeError) =>
          match dec.apiError(d)
          case Some(apiError) => Failure(Api(apiError))
          case None => Failure(Decoding(decodeError))
  }

  /** The completion handler in `performSpeechRequest`: the same transport
      and empty-data errors, and otherwise the received bytes, undecoded. */
  function SpeechOutcome<T>(error: Option<T>, data: Option<seq<byte>>): (r: Result<seq<byte>, FetchError<T>>)
    ensures r.Success? <==> error.None? && data.Some?
    ensures r.Success? ==> r.value == data.value
    ensures r.Failure? ==> r.error == if error.Some? then Transport(error.value) else EmptyData
  {
    match error
    case Some(e) => Failure(Transport(e))
    case None =>
      match data
      case None => Failure(EmptyData)
      case Some(d) => Success(d)
  }

  /** The speech request fails exactly as the plain request does before any
      decoding: on a transport error, with that error, and on missing data. */
  lemma SpeechFailsLikeRequest<R, E, D, T>(error: Option<T>, data: Option<seq<byte>>, dec: Decoders<seq<byte>, R, E, D>)
    ensures var speech := SpeechOutcome(error, data);
      var plain := ResponseOutcome(error, data, dec);
      && (speech.Failure? <==> plain.Failure? && plain.error.Fetch?)
      && (speech.Failure? ==> plain.error == Fetch(speech.error))
  {
  }

  /** The plain request and one streamed payload decide alike: a payload
      that is not the sentinel ends in the same event, API error or decode
      error as a response with that body, except that the last payload of a
      pass is held back where the response would fail to decode. */
  lemma ResponseAgreesWithStream<R, E, D, T>(c: string, isLast: bool, dec: Decoders<string, R, E, D>)
    requires c != "" && c != CompletionMarker
    ensures var o := Classify(c, isLast, dec);
      match ResponseOutcome<string, R, E, D, T>(None, Some(c), dec)
      case Success(x) => o == Emit(Event(x))
      case Failure(Api(e)) => o == Emit(ApiError(e))
      case Failure(Decoding(d)) => o == if isLast then Hold(c) else Emit(DecodeError(d))
      case Failure(Fetch(_)) => false
  {
  }

  /** What starting a request leads to: the requests handed to the
      transport and the calls of the completion handler. */
  datatype Launch<Q, R, X> = Launch(started: seq<Q>, completions: seq<Result<R, X>>)

  /** `performRequest`: a request that cannot be built is reported to the
      completion handler and nothing is sent; otherwise exactly the built
      request is sent and its response decides the outcome. `transport` is
      the data task: the error and the data it completes with. */
  function PerformRequest<Q, In, R, E, D, B, T>(build: Result<Q, B>, transport: Q -> (Option<T>, Option<In>),
                                                dec: Decoders<In, R, E, D>)
    : (r: Launch<Q, R, RequestError<B, ResponseError<T, E, D>>>)
    ensures |r.completions| == 1
    ensures build.Failure? <==> r.started == []
    ensures build.Failure? ==> r.completions[0] == Failure(BuildFailed(build.error))
    ensures build.Success? ==> r.started == [build.value]
    ensures build.Success? ==>
      var (error, data) := transport(build.value);
      var c := r.completions[0];
      && (c.Success? <==> error.None? && data.Some? && dec.result(data.value).Success?)
      && (c.Success? ==> c.value == dec.result(data.value).value)
      && (c.Failure? ==> c.error == Sent(ResponseOutcome(error, data, dec).error))
  {
    match build
    case Failure(b) => Launch([], [Failure(BuildFailed(b))])
    case Success(q) =>
      var (error, data) := transport(q);
      match ResponseOutcome(error, data, dec)
      case Success(x) => Launch([q], [Success(x)])
      case Failure(e) => Launch([q], [Failure(Sent(e))])
  }

  /** `performSpeechRequest`, as `PerformRequest` with the speech outcome. */
  function PerformSpeechRequest<Q, B, T>(build: Result<Q, B>, transport: Q -> (Option<T>, Option<seq<byte>>))
    : (r: Launch<Q, seq<byte>, RequestError<B, FetchError<T>>>)
    ensures |r.completions| == 1
    ensures build.Failure? <==> r.started == []
    ensures build.Failure? ==> r.completions[0] == Failure(BuildFailed(build.error))
    ensures build.Success? ==> r.started == [build.value]
    ensures build.Success? ==>
      var (error, data) := transport(build.value);
      var c := r.completions[0];
      && (c.Success? <==> error.None? && data.Some?)
      && (c.Success? ==> c.value == data.value)
      && (c.Failure? ==> c.error == Sent(if error.Some? then Transport(error.value) else EmptyData))
  {
    match build
    case Failure(b) => Launch([], [Failure(BuildFailed(b))])
    case Success(q) =>
      var (error, data) := transport(q);
      match SpeechOutcome(error, data)
      case Success(audio) => Launch([q], [Success(audio)])
      case Failure(e) => Launch([q], [Failure(Sent(e))])
  }

  /** A speech request and a plain request built and answered alike send
      the same request and fail alike up to decoding: both report the same
      build failure, and the speech request fails after sending exactly when
      the plain one fails to fetch, with the same fetch error. */
  lemma SpeechLaunchFailsLikeRequest<Q, R, E, D, B, T>(build: Result<Q, B>, transport: Q -> (Option<T>, Option<seq<byte>>),
                                                       dec: Decoders<seq<byte>, R, E, D>)
    ensures var speech, plain := PerformSpeechRequest(build, transport), PerformRequest(build, transport, dec);
      && speech.started == plain.started
      && (speech.completions[0].Failure? <==>
            plain.completions[0].Failure? && (plain.completions[0].error.BuildFailed? || plain.completions[0].error.error.Fetch?))
      && (speech.completions[0].Failure? ==>
            match speech.completions[0].error
            case BuildFailed(b) => plain.completions[0] == Failure(BuildFailed(b))
            case Sent(f) => plain.completions[0] == Failure(Sent(Fetch(f))))
  {
    if build.Success? {
      var (error, data) := transport(build.value);
      SpeechFailsLikeRequest(error, data, dec);
    }
  }

  // ---------------------------------------------------------------------
  // Streaming sessions
  // ---------------------------------------------------------------------

  /** `onResult` as the session's callbacks call it: an event as a success,
      anything else as that failure. */
  function OnResult<R, E, D>(em: Emission<R, E, D>): (r: Result<R, Emission<R, E, D>>)
    ensures r.Success? <==> em.Event?
    ensures r.Success? ==> em == Event(r.value)
    ensures r.Failure? ==> r.error == em
  {
    match em
    case Event(x) => Success(x)
    case _ => Failure(em)
  }

  /** The live sessions other than `s`: `removeAll(where: { $0 == s })`. */
  function Unregister<S(==, !new)>(registry: seq<S>, s: S): (r: seq<S>)
    ensures s !in r
    ensures forall x :: x != s ==> (x in r <==> x in registry)
  {
    Seqs.FilterMembers(registry, Other(s));
    Seqs.Filter(registry, Other(s))
  }

  function Other<S(==)>(s: S): S -> bool {
    x => x != s
  }

  /** Unregistering keeps the other sessions in their order and with their
      multiplicity, and removes every entry for `s`. */
  lemma UnregisterKeepsOthers<S(!new)>(registry: seq<S>, s: S)
    ensures Seqs.IsSubsequence(Unregister(registry, s), registry)
    ensures forall x :: multiset(Unregister(registry, s))[x] == if x == s then 0 else multiset(registry)[x]
  {
    Seqs.FilterIsSubsequence(registry, Other(s));
    forall x ensures multiset(Unregister(registry, s))[x] == if x == s then 0 else multiset(registry)[x] {
      Seqs.FilterCounts(registry, Other(s), x);
    }
  }

  /** Unregistering a session twice is unregistering it once. */
  lemma UnregisterIdempotent<S(!new)>(registry: seq<S>, s: S)
    ensures Unregister(Unregister(registry, s), s) == Unregister(registry, s)
  {
    var r := Unregister(registry, s);
    assert forall i :: 0 <= i < |r| ==> r[i] in r;
    Seqs.FilterKeepsAll(r, Other(s));
  }

  /** `performStreamingRequest`: the registry after starting a session and
      the calls of `completion` so far. A request that cannot be built is
      reported once, and no session is started or registered; otherwise the
      new session `s` is appended. */
  function StartStream<Q, S(==, !new), B>(registry: seq<S>, build: Result<Q, B>, s: S): (r: (seq<S>, seq<Option<B>>))
    ensures build.Failure? ==> r == (registry, [Some(build.error)])
    ensures build.Success? ==> r == (registry + [s], [])
    ensures forall x :: x in r.0 <==> x in registry || (build.Success? && x == s)
    ensures |r.1| == if build.Failure? then 1 else 0
  {
    match build
    case Failure(b) => (registry, [Some(b)])
    case Success(_) => (registry + [s], [])
  }

  /** The session's `onComplete`: the session leaves the registry and the
      caller's `completion` receives the session's error unchanged. */
  function CompleteStream<S(==, !new), T>(registry: seq<S>, s: S, error: Option<T>): (r: (seq<S>, Option<T>))
    ensures r.0 == Unregister(registry, s) && r.1 == error
    ensures forall x :: x in r.0 <==> x in registry && x != s
  {
    (Unregister(registry, s), error)
  }

  /** A stream that starts and completes leaves the registry as it found
      it, when the session was new. */
  lemma StreamLifecycleRestoresRegistry<Q, S(!new), B, T>(registry: seq<S>, q: Q, s: S, error: Option<T>)
    requires s !in registry
    ensures var (started, _) := StartStream<Q, S, B>(registry, Success(q), s);
      CompleteStream(started, s, error) == (registry, error)
  {
    var started := registry + [s];
    Seqs.FilterConcat(registry, [s], Other(s));
    assert Seqs.Filter([s], Other(s)) == [] by {
      assert [s][..0] == [];
    }
    assert forall i :: 0 <= i < |registry| ==> Other(s)(registry[i]) by {
      forall i | 0 <= i < |registry| ensures Other(s)(registry[i]) {
        assert registry[i] in registry;
      }
    }
    Seqs.FilterKeepsAll(registry, Other(s));
    assert registry + [] == registry;
  }
}

=== FILE: seqs.dfy ===
/** Order-preserving filtering of sequences, the `filter` / `removeAll(where:)`
    of the Swift standard library. */
module Seqs {

  /** `a` is obtained from `b` by deleting some elements, keeping the order of
      the rest. */
  ghost predicate IsSubsequence<T>(a: seq<T>, b: seq<T>)
    decreases |b|
  {
    if |a| == 0 then true
    else if |b| == 0 then false
    else (a[|a| - 1] == b[|b| - 1] && IsSubsequence(a[..|a| - 1], b[..|b| - 1]))
         || IsSubsequence(a, b[..|b| - 1])
  }

  /** The elements of `xs` that satisfy `keep`, in their original order. */
  function Filter<T>(xs: seq<T>, keep: T -> bool): (r: seq<T>)
    ensures |r| <= |xs|
    decreases |xs|
  {
    if |xs| == 0 then []
    else Filter(xs[..|xs| - 1], keep) + (if keep(xs[|xs| - 1]) then [xs[|xs| - 1]] else [])
  }

  /** The kept elements are exactly the elements of `xs` that satisfy
      `keep`. */
  lemma {:induction false} FilterMembers<T>(xs: seq<T>, keep: T -> bool)
    ensures forall x :: x in Filter(xs, keep) <==> x in xs && keep(x)
    decreases |xs|
  {
    if |xs| > 0 {
      var init, last := xs[..|xs| - 1], xs[|xs| - 1];
      assert xs == init + [last];
      FilterMembers(init, keep);
    }
  }

  lemma {:induction false} SubsequenceExtend<T>(a: seq<T>, b: seq<T>, x: T)
    requires IsSubsequence(a, b)
    ensures IsSubsequence(a, b + [x])
    ensures IsSubsequence(a + [x], b + [x])
  {
    assert (b + [x])[..|b + [x]| - 1] == b;
    assert (a + [x])[..|a + [x]| - 1] == a;
  }

  /** Filtering deletes elements but never reorders the ones it keeps. */
  lemma {:induction false} FilterIsSubsequence<T>(xs: seq<T>, keep: T -> bool)
    ensures IsSubsequence(Filter(xs, keep), xs)
    decreases |xs|
  {
    if |xs| == 0 {
    } else {
      var init, last := xs[..|xs| - 1], xs[|xs| - 1];
      assert xs == init + [last];
      FilterIsSubsequence(init, keep);
      SubsequenceExtend(Filter(init, keep), init, last);
      if keep(last) {
        assert Filter(xs, keep) == Filter(init, keep) + [last];
      } else {
        assert Filter(xs, keep) == Filter(init, keep);
      }
    }
  }

  /** Filtering distributes over concatenation. */
  lemma {:induction false} FilterConcat<T>(xs: seq<T>, ys: seq<T>, keep: T -> bool)
    ensures Filter(xs + ys, keep) == Filter(xs, keep) + Filter(ys, keep)
    decreases |ys|
  {
    if |ys| == 0 {
      assert xs + ys == xs;
    } else {
      var init, last := ys[..|ys| - 1], ys[|ys| - 1];
      var zs := xs + ys;
      assert zs[..|zs| - 1] == xs + init && zs[|zs| - 1] == last;
      var tail := if keep(last) then [last] else [];
      assert Filter(zs, keep) == Filter(xs + init, keep) + tail;
      assert Filter(ys, keep) == Filter(init, keep) + tail;
      FilterConcat(xs, init, keep);
    }
  }

  /** When every element is kept, filtering is the identity. */
  lemma {:induction false} FilterKeepsAll<T>(xs: seq<T>, keep: T -> bool)
    requires forall i :: 0 <= i < |xs| ==> keep(xs[i])
    ensures Filter(xs, keep) == xs
    decreases |xs|
  {
    if |xs| > 0 {
      var init, last := xs[..|xs| - 1], xs[|xs| - 1];
      assert forall i :: 0 <= i < |init| ==> keep(init[i]) by {
        forall i | 0 <= i < |init| ensures keep(init[i]) {
          assert init[i] == xs[i];
        }
      }
      FilterKeepsAll(init, keep);
      assert keep(last);
      assert Filter(xs, keep) == init + [last];
      assert init + [last] == xs;
    }
  }

  /** Filtering keeps every occurrence of a kept element and no occurrence of
      a dropped one. */
  lemma {:induction false} FilterCounts<T>(xs: seq<T>, keep: T -> bool, x: T)
    ensures multiset(Filter(xs, keep))[x] == if keep(x) then multiset(xs)[x] else 0
    decreases |xs|
  {
    if |xs| > 0 {
      var init, last := xs[..|xs| - 1], xs[|xs| - 1];
      assert xs == init + [last];
      FilterCounts(init, keep, x);
    }
  }
}

=== FILE: streaming_frames.dfy ===
/** Chunks laid out as an event stream, `data: <payload>` lines separated by
    blank lines, and what the chunk decoder makes of them: the payloads come
    back unchanged, a payload cut in two by the chunk boundary is recovered,
    and the cases where the decoder does not keep the payloads intact. */
module StreamingFrames {
  import opened Wrappers
  import opened Text
  import Seqs
  import opened StreamingSession

  /** A payload that can travel on one `data:` line and come back
      unchanged: not empty, on one line, and free of the marker. */
  ghost predicate Transportable(p: string) {
    && p != ""
    && OnOneLine(p)
    && !Occurs(Marker, p)
  }

  /** The lines of an event stream carrying `ps`: one `data:` line per
      payload, consecutive events separated by a blank line. */
  function FrameLines(ps: seq<string>): (r: seq<string>)
    requires |ps| > 0
    ensures |r| > 0 && r[0] == Marker + ps[0] && r[|r| - 1] == Marker + ps[|ps| - 1]
    decreases |ps|
  {
    if |ps| == 1 then [Marker + ps[0]]
    else FrameLines(ps[..|ps| - 1]) + ["", Marker + ps[|ps| - 1]]
  }

  /** The event stream text carrying `ps`. */
  function Frames(ps: seq<string>): string
    requires |ps| > 0
  {
    Join(FrameLines(ps), '\n')
  }

  /** Every payload behind the marker. */
  function Tagged(ps: seq<string>): (r: seq<string>)
    ensures |r| == |ps|
    ensures forall i :: 0 <= i < |ps| ==> r[i] == Marker + ps[i]
  {
    seq(|ps|, i requires 0 <= i < |ps| => Marker + ps[i])
  }

  /** The last payload is not empty and does not end in whitespace, so
      trimming the stream leaves it whole. */
  predicate EndsVisibly(ps: seq<string>) {
    |ps| > 0 && |ps[|ps| - 1]| > 0 && !IsWhitespaceOrNewline(ps[|ps| - 1][|ps[|ps| - 1]| - 1])
  }

  /** A blank line is not a data line. */
  lemma BlankThenData(tagged: string)
    requires IsDataLine(tagged)
    ensures Seqs.Filter(["", tagged], IsDataLine) == [tagged]
  {
    assert ["", tagged][..1] == [""];
    assert [""][..0] == [];
    assert Seqs.Filter([""], IsDataLine) == [];
  }

  /** The data lines of the frames are exactly the tagged payloads: the
      blank separator lines are not data lines. */
  lemma {:induction false} FrameDataLines(ps: seq<string>)
    requires |ps| > 0
    ensures Seqs.Filter(FrameLines(ps), IsDataLine) == Tagged(ps)
    decreases |ps|
  {
    var tagged := Marker + ps[|ps| - 1];
    assert IsDataLine(tagged);
    if |ps| == 1 {
      assert FrameLines(ps) == [tagged];
      assert [tagged][..0] == [];
      assert Seqs.Filter([tagged], IsDataLine) == Seqs.Filter([], IsDataLine) + [tagged];
      assert Tagged(ps) == [tagged];
    } else {
      var init := ps[..|ps| - 1];
      var ls0 := FrameLines(init);
      assert Tagged(ps) == Tagged(init) + [tagged] by {
        assert forall i :: 0 <= i < |init| ==> init[i] == ps[i];
      }
      calc {
        Seqs.Filter(FrameLines(ps), IsDataLine);
        Seqs.Filter(ls0 + ["", tagged], IsDataLine);
        { Seqs.FilterConcat(ls0, ["", tagged], IsDataLine); }
        Seqs.Filter(ls0, IsDataLine) + Seqs.Filter(["", tagged], IsDataLine);
        { FrameDataLines(init); BlankThenData(tagged); }
        Tagged(init) + [tagged];
      }
    }
  }

  /** No character of `s` is a newline. */
  predicate OnOneLine(s: string) {
    forall j :: 0 <= j < |s| ==> !IsNewline(s[j])
  }

  /** No line of `ls` holds a newline. */
  predicate AllOnOneLine(ls: seq<string>) {
    forall i :: 0 <= i < |ls| ==> OnOneLine(ls[i])
  }

  /** A payload on one line makes a frame line on one line. */
  lemma TaggedOnOneLine(p: string)
    requires OnOneLine(p)
    ensures OnOneLine(Marker + p)
  {
    forall j | 0 <= j < |Marker + p| ensures !IsNewline((Marker + p)[j]) {
      if j >= |Marker| {
        assert (Marker + p)[j] == p[j - |Marker|];
      }
    }
  }

  /** No frame line holds a newline when no payload does. */
  lemma {:induction false} FrameLinesOnOneLine(ps: seq<string>)
    requires |ps| > 0
    requires AllOnOneLine(ps)
    ensures AllOnOneLine(FrameLines(ps))
    decreases |ps|
  {
    TaggedOnOneLine(ps[|ps| - 1]);
    if |ps| > 1 {
      var init := ps[..|ps| - 1];
      FrameLinesOnOneLine(init);
      var ls, ls0 := FrameLines(ps), FrameLines(init);
      assert ls == ls0 + ["", Marker + ps[|ps| - 1]];
      forall i | 0 <= i < |ls| ensures OnOneLine(ls[i]) {
        if i < |ls0| {
          assert ls[i] == ls0[i];
        } else if i == |ls0| {
          assert ls[i] == "";
        } else {
          assert ls[i] == Marker + ps[|ps| - 1];
        }
      }
    }
  }

  /** The first piece of an interleaving is a prefix of it and the last
      piece a suffix. */
  lemma {:induction false} InterleaveEnds(parts: seq<string>, seps: string)
    requires |parts| == |seps| + 1
    ensures var s := Interleave(parts, seps);
      && parts[0] <= s
      && |parts[|parts| - 1]| <= |s|
      && s[|s| - |parts[|parts| - 1]|..] == parts[|parts| - 1]
    decreases |seps|
  {
    if |seps| > 0 {
      var rest := parts[1..];
      InterleaveEnds(rest, seps[1..]);
      var tail := Interleave(rest, seps[1..]);
      var s := parts[0] + [seps[0]] + tail;
      assert Interleave(parts, seps) == s;
      assert parts[0] <= s;
      assert rest[|rest| - 1] == parts[|parts| - 1];
      assert s[|s| - |tail|..] == tail;
    }
  }

  /** The frames start with the marker and end with the last payload, so
      trimming them removes nothing; trailing whitespace is trimmed away. */
  lemma FramesTrimmed(ps: seq<string>, pad: string)
    requires EndsVisibly(ps)
    requires forall j :: 0 <= j < |pad| ==> IsWhitespaceOrNewline(pad[j])
    ensures Trim(Frames(ps) + pad, IsWhitespaceOrNewline) == Frames(ps)
  {
    var f := Frames(ps);
    var ls := FrameLines(ps);
    var first, last := Marker + ps[0], Marker + ps[|ps| - 1];
    InterleaveEnds(ls, seq(|ls| - 1, _ => '\n'));
    assert f[0] == first[0] == 'd';
    assert f[|f| - 1] == last[|last| - 1];
    assert PaddedBy(f, IsWhitespaceOrNewline, 0, |f|);
    assert f[0..|f|] == f;
    TrimUnique(f, IsWhitespaceOrNewline, 0, |f|);
    TrimIgnoresPadding("", f, pad, IsWhitespaceOrNewline);
    assert "" + f + pad == f + pad;
  }

  /** The marker in front of a marker-free payload is all the decoder
      strips: the payload re-enters the next pass verbatim. */
  lemma StripTaggedPayload(p: string)
    requires !Occurs(Marker, p)
    ensures StripMarker(Marker + p) == p
  {
    var s := Marker + p;
    assert Marker <= s;
    assert s[|Marker|..] == p;
    RemoveAbsent(p, Marker);
  }

  /** Every transportable payload is on one line. */
  lemma TransportableOnOneLine(ps: seq<string>)
    requires forall i :: 0 <= i < |ps| ==> Transportable(ps[i])
    ensures AllOnOneLine(ps)
  {
    forall i | 0 <= i < |ps| ensures OnOneLine(ps[i]) {
      assert Transportable(ps[i]);
    }
  }

  /** The lines of a text, once its trimmed form is known. */
  lemma LinesOfTrimmed(text: string, trimmed: string)
    requires Trim(text, IsWhitespaceOrNewline) == trimmed
    ensures Lines(text) == SplitBy(trimmed, IsNewline)
  {
  }

  /** Cutting the padded frames at their newlines gives back the frame
      lines. */
  lemma FramesLines(ps: seq<string>, pad: string)
    requires forall i :: 0 <= i < |ps| ==> Transportable(ps[i])
    requires EndsVisibly(ps)
    requires forall j :: 0 <= j < |pad| ==> IsWhitespaceOrNewline(pad[j])
    ensures Lines(Frames(ps) + pad) == FrameLines(ps)
  {
    FramesTrimmed(ps, pad);
    LinesOfTrimmed(Frames(ps) + pad, Frames(ps));
    TransportableOnOneLine(ps);
    FramesSplit(ps);
  }

  /** The frames cut at their newlines are the frame lines. */
  lemma FramesSplit(ps: seq<string>)
    requires |ps| > 0
    requires AllOnOneLine(ps)
    ensures SplitBy(Frames(ps), IsNewline) == FrameLines(ps)
  {
    FrameLinesOnOneLine(ps);
    LinesRejoined(FrameLines(ps));
  }

  /** Lines without newlines, joined by newlines, are cut back into the
      same lines. */
  lemma LinesRejoined(ls: seq<string>)
    requires |ls| > 0
    requires AllOnOneLine(ls)
    ensures SplitBy(Join(ls, '\n'), IsNewline) == ls
  {
    forall i, j | 0 <= i < |ls| && 0 <= j < |ls[i]| ensures !IsNewline(ls[i][j]) {
      assert OnOneLine(ls[i]);
    }
    JoinSplits(ls, '\n', IsNewline);
  }

  /** Stripping the marker from every tagged payload gives back the
      payloads. */
  lemma StripTagged(ps: seq<string>)
    requires forall i :: 0 <= i < |ps| ==> Transportable(ps[i])
    ensures StripMarkers(Tagged(ps)) == ps
  {
    forall i | 0 <= i < |ps| ensures StripMarkers(Tagged(ps))[i] == ps[i] {
      assert Transportable(ps[i]);
      StripTaggedPayload(ps[i]);
    }
  }

  /** The candidates of a text, once its lines are known. */
  lemma CandidatesOfLines(text: string, ls: seq<string>)
    requires Lines(text) == ls
    ensures Candidates(text) == Seqs.Filter(StripMarkers(Seqs.Filter(ls, IsDataLine)), NonEmpty)
  {
  }

  /** Decoding the frames gives back the payloads, in order: the decoder
      inverts `Frames`, whatever whitespace follows the last event. */
  lemma FramesDecode(ps: seq<string>, pad: string)
    requires forall i :: 0 <= i < |ps| ==> Transportable(ps[i])
    requires EndsVisibly(ps)
    requires forall j :: 0 <= j < |pad| ==> IsWhitespaceOrNewline(pad[j])
    ensures Candidates(Frames(ps) + pad) == ps
  {
    FramesLines(ps, pad);
    CandidatesOfLines(Frames(ps) + pad, FrameLines(ps));
    FrameDataLines(ps);
    StripTagged(ps);
    assert forall i :: 0 <= i < |ps| ==> NonEmpty(ps[i]) by {
      forall i | 0 <= i < |ps| ensures NonEmpty(ps[i]) {
        assert Transportable(ps[i]);
      }
    }
    Seqs.FilterKeepsAll(ps, NonEmpty);
  }

  // ---------------------------------------------------------------------
  // Whole chunks
  // ---------------------------------------------------------------------

  /** A stream of one event is its data line. */
  lemma FramesOfOne(p: string)
    ensures Frames([p]) == Marker + p
  {
    assert FrameLines([p]) == [Marker + p];
  }

  /** A pass over the given candidates, when the chunk is not empty. */
  lemma StepOver<R, E, D>(buffer: string, content: string, cands: seq<string>, dec: Decoders<string, R, E, D>)
    requires content != "" && Candidates(buffer + content) == cands
    requires |cands| > 0 && cands[0] != CompletionMarker
    ensures Step(buffer, content, dec) == Pass(Held(cands, dec), Emitted(cands, dec))
  {
  }

  /** The sentinel is free of the marker. */
  lemma SentinelTransportable()
    ensures Transportable(CompletionMarker)
  {
    assert !OccursAt(Marker, CompletionMarker, 0) by {
      assert CompletionMarker[0..6][0] != Marker[0];
    }
    assert forall i :: OccursAt(Marker, CompletionMarker, i) ==> i == 0;
  }

  /** A chunk that holds only the sentinel fires nothing and leaves the
      buffer empty. */
  lemma SentinelOnlyChunkIsSilent<R, E, D>(pad: string, dec: Decoders<string, R, E, D>)
    requires forall j :: 0 <= j < |pad| ==> IsWhitespaceOrNewline(pad[j])
    ensures Step("", Frames([CompletionMarker]) + pad, dec) == Pass("", [])
  {
    SentinelTransportable();
    FramesDecode([CompletionMarker], pad);
    assert "" + (Frames([CompletionMarker]) + pad) == Frames([CompletionMarker]) + pad;
  }

  /** The frames start the stream: the buffer before them is empty. */
  lemma FreshFramesDecode(ps: seq<string>, pad: string)
    requires forall i :: 0 <= i < |ps| ==> Transportable(ps[i])
    requires EndsVisibly(ps)
    requires forall j :: 0 <= j < |pad| ==> IsWhitespaceOrNewline(pad[j])
    ensures Frames(ps) + pad != ""
    ensures Candidates("" + (Frames(ps) + pad)) == ps
  {
    FramesDecode(ps, pad);
    assert "" + (Frames(ps) + pad) == Frames(ps) + pad;
  }

  /** A pass over a single candidate. */
  lemma PassOfOne<R, E, D>(c: string, dec: Decoders<string, R, E, D>)
    ensures Emitted([c], dec) == Emits(Classify(c, true, dec))
    ensures Held([c], dec) == if Classify(c, true, dec).Hold? then Marker + c else ""
  {
    assert EmittedUpTo([c], 0, dec) == [];
  }

  /** A pass over two candidates. */
  lemma PassOfTwo<R, E, D>(c: string, d: string, dec: Decoders<string, R, E, D>)
    ensures Emitted([c, d], dec) == Emits(Classify(c, false, dec)) + Emits(Classify(d, true, dec))
    ensures Held([c, d], dec) == if Classify(d, true, dec).Hold? then Marker + d else ""
  {
    assert EmittedUpTo([c, d], 1, dec) == Emits(Classify(c, false, dec)) by {
      assert EmittedUpTo([c, d], 0, dec) == [];
    }
  }

  /** A chunk of frames that does not start with the sentinel is one pass
      over its payloads. */
  lemma PassOverFrames<R, E, D>(ps: seq<string>, pad: string, dec: Decoders<string, R, E, D>)
    requires forall i :: 0 <= i < |ps| ==> Transportable(ps[i])
    requires EndsVisibly(ps) && ps[0] != CompletionMarker
    requires forall j :: 0 <= j < |pad| ==> IsWhitespaceOrNewline(pad[j])
    ensures Step("", Frames(ps) + pad, dec) == Pass(Held(ps, dec), Emitted(ps, dec))
  {
    FreshFramesDecode(ps, pad);
    StepOver("", Frames(ps) + pad, ps, dec);
  }

  /** A fresh chunk whose only candidate is an event fires that event
      and nothing else, and leaves the buffer empty. */
  lemma OneEventChunk<R, E, D>(text: string, p: string, dec: Decoders<string, R, E, D>)
    requires text != "" && Candidates(text) == [p]
    requires p != CompletionMarker && dec.result(p).Success?
    ensures Step("", text, dec) == Pass("", [Event(dec.result(p).value)])
  {
    assert "" + text == text;
    assert p == Candidates(text)[0] && p != "";
    StepOver("", text, [p], dec);
    PassOfOne(p, dec);
    assert Classify(p, true, dec) == Emit(Event(dec.result(p).value));
  }

  /** A structured error payload in place of an event fires exactly one
      API error and never an event, and is not buffered. */
  lemma ApiErrorPayload<R, E, D>(p: string, pad: string, dec: Decoders<string, R, E, D>)
    requires Transportable(p) && p != CompletionMarker && EndsVisibly([p])
    requires forall j :: 0 <= j < |pad| ==> IsWhitespaceOrNewline(pad[j])
    requires dec.result(p).Failure? && dec.apiError(p).Some?
    ensures Step("", Frames([p]) + pad, dec) == Pass("", [ApiError(dec.apiError(p).value)])
  {
    OnePayload(p);
    PassOverFrames([p], pad, dec);
    PassOfOne(p, dec);
  }

  /** A payload that is neither event nor API error fires exactly one
      decode error when a payload follows it in the same chunk, and is not
      buffered; the payload after it is handled as usual. */
  lemma MalformedBeforeLast<R, E, D>(p: string, q: string, pad: string, dec: Decoders<string, R, E, D>)
    requires Transportable(p) && p != CompletionMarker
    requires Transportable(q) && q != CompletionMarker && EndsVisibly([q])
    requires forall j :: 0 <= j < |pad| ==> IsWhitespaceOrNewline(pad[j])
    requires dec.result(p).Failure? && dec.apiError(p).None?
    requires dec.result(q).Success?
    ensures Step("", Frames([p, q]) + pad, dec)
         == Pass("", [DecodeError(dec.result(p).error), Event(dec.result(q).value)])
  {
    TwoPayloads(p, q);
    PassOverFrames([p, q], pad, dec);
    PassOfTwo(p, q, dec);
  }

  /** Text appended to a one-event stream extends its payload. */
  lemma FramesExtend(head: string, tail: string, pad: string)
    ensures Frames([head]) + (tail + pad) == Frames([head + tail]) + pad
  {
    FramesOfOne(head);
    FramesOfOne(head + tail);
  }

  /** A one-event stream decodes to its payload. */
  lemma OneFrameDecodes(p: string, pad: string)
    requires Transportable(p) && EndsVisibly([p])
    requires forall j :: 0 <= j < |pad| ==> IsWhitespaceOrNewline(pad[j])
    ensures Candidates(Frames([p]) + pad) == [p]
  {
    FramesDecode([p], pad);
  }

  /** The held data line and the text that completes it make one
      candidate. */
  lemma CompletedCandidates(head: string, tail: string, pad: string)
    requires Transportable(head + tail) && EndsVisibly([head + tail])
    requires forall j :: 0 <= j < |pad| ==> IsWhitespaceOrNewline(pad[j])
    ensures Candidates(Frames([head]) + (tail + pad)) == [head + tail]
  {
    OneFrameDecodes(head + tail, pad);
    FramesExtend(head, tail, pad);
  }

  /** A lone payload that decodes as neither event nor API error is held
      back, as its own data line, and nothing is reported. */
  lemma FragmentHeld<R, E, D>(head: string, dec: Decoders<string, R, E, D>)
    requires Transportable(head) && head != CompletionMarker && EndsVisibly([head])
    requires dec.result(head).Failure? && dec.apiError(head).None?
    ensures Step("", Frames([head]), dec) == Pass(Frames([head]), [])
  {
    OnePayload(head);
    PassOverFrames([head], "", dec);
    assert Frames([head]) + "" == Frames([head]);
    PassOfOne(head, dec);
    FramesOfOne(head);
  }

  /** The rest of a held payload completes it: the buffered head and the
      new text are decoded as one payload. */
  lemma FragmentCompleted<R, E, D>(head: string, tail: string, pad: string, dec: Decoders<string, R, E, D>)
    requires tail != ""
    requires Transportable(head + tail) && head + tail != CompletionMarker && EndsVisibly([head + tail])
    requires forall j :: 0 <= j < |pad| ==> IsWhitespaceOrNewline(pad[j])
    requires dec.result(head + tail).Success?
    ensures Step(Frames([head]), tail + pad, dec) == Pass("", [Event(dec.result(head + tail).value)])
  {
    CompletedCandidates(head, tail, pad);
    StepOver(Frames([head]), tail + pad, [head + tail], dec);
  }

  /** Two-chunk recovery: a payload cut in two by the chunk boundary, whose
      head decodes as neither event nor API error, is held silently by the
      first chunk and decoded as one event, with no error, once the second
      chunk arrives. */
  lemma SplitPayloadRecovered<R, E, D>(head: string, tail: string, pad: string, dec: Decoders<string, R, E, D>)
    requires Transportable(head) && head != CompletionMarker && EndsVisibly([head])
    requires Transportable(head + tail) && head + tail != CompletionMarker && EndsVisibly([head + tail])
    requires forall j :: 0 <= j < |pad| ==> IsWhitespaceOrNewline(pad[j])
    requires dec.result(head).Failure? && dec.apiError(head).None?
    requires dec.result(head + tail).Success?
    ensures Step("", Frames([head]), dec) == Pass(Frames([head]), [])
    ensures Step(Frames([head]), tail + pad, dec) == Pass("", [Event(dec.result(head + tail).value)])
  {
    FragmentHeld(head, dec);
    assert tail == "" ==> head + tail == head;
    FragmentCompleted(head, tail, pad, dec);
  }

  /** A cut right after whitespace loses that whitespace: the chunk is
      trimmed before the fragment is held, so a payload sent as
      `head + gap + tail` is decoded as `head + tail`. */
  lemma WhitespaceAtCutIsLost<R, E, D>(head: string, gap: string, tail: string, pad: string,
                                       dec: Decoders<string, R, E, D>)
    requires Transportable(head) && head != CompletionMarker && EndsVisibly([head])
    requires gap != "" && forall j :: 0 <= j < |gap| ==> IsWhitespaceOrNewline(gap[j])
    requires Transportable(head + tail) && head + tail != CompletionMarker && EndsVisibly([head + tail])
    requires forall j :: 0 <= j < |pad| ==> IsWhitespaceOrNewline(pad[j])
    requires dec.result(head).Failure? && dec.apiError(head).None?
    requires dec.result(head + tail).Success?
    ensures Step("", Frames([head]) + gap, dec) == Pass(Frames([head]), [])
    ensures Step(Frames([head]), tail + pad, dec) == Pass("", [Event(dec.result(head + tail).value)])
  {
    OnePayload(head);
    PassOverFrames([head], gap, dec);
    PassOfOne(head, dec);
    FramesOfOne(head);
    assert tail == "" ==> head + tail == head;
    FragmentCompleted(head, tail, pad, dec);
  }

  /** The last payload of a chunk loses its trailing whitespace: the glued
      text is trimmed before it is split, so `p + gap` decodes as `p`. */
  lemma TrailingWhitespaceIsTrimmed(p: string, gap: string, pad: string)
    requires Transportable(p) && EndsVisibly([p])
    requires forall j :: 0 <= j < |gap| ==> IsWhitespaceOrNewline(gap[j])
    requires forall j :: 0 <= j < |pad| ==> IsWhitespaceOrNewline(pad[j])
    ensures Candidates(Frames([p + gap]) + pad) == [p]
  {
    FramesOfOne(p);
    FramesOfOne(p + gap);
    assert Frames([p + gap]) + pad == Frames([p]) + (gap + pad);
    assert forall j :: 0 <= j < |gap + pad| ==> IsWhitespaceOrNewline((gap + pad)[j]);
    OnePayload(p);
    FramesDecode([p], gap + pad);
  }

  // ---------------------------------------------------------------------
  // Proof steps. The payload lists of one and two elements, stated apart
  // so that the lemmas above do not unfold `Transportable` over a list
  // display.
  // ---------------------------------------------------------------------

  /** One transportable payload. */
  lemma OnePayload(p: string)
    requires Transportable(p)
    ensures forall i :: 0 <= i < |[p]| ==> Transportable([p][i])
  {
  }

  /** Two transportable payloads, the second ending visibly. */
  lemma TwoPayloads(p: string, q: string)
    requires Transportable(p) && Transportable(q) && EndsVisibly([q])
    ensures forall i :: 0 <= i < |[p, q]| ==> Transportable([p, q][i])
    ensures EndsVisibly([p, q])
  {
  }
}

// Worked examples over concrete chunks, and the ways the decoder departs
// from a byte-stream parser that ignores chunk boundaries.
module StreamingExamples {
  import opened Wrappers
  import Seqs
  import opened Text
  import opened StreamingSession
  import opened StreamingFrames

  /** Text without a space cannot hold the marker, which ends in one. */
  lemma NoSpaceNoMarker(p: string)
    requires forall j :: 0 <= j < |p| ==> p[j] != ' '
    ensures !Occurs(Marker, p)
  {
    assert forall i :: OccursAt(Marker, p, i) ==> p[i..i + |Marker|][5] == p[i + 5] == ' ';
  }

  /** A payload of printable, non-space characters travels unchanged. */
  lemma PlainPayload(p: string)
    requires p != ""
    requires forall j :: 0 <= j < |p| ==> '!' <= p[j] <= '~'
    ensures Transportable(p) && EndsVisibly([p])
  {
    NoSpaceNoMarker(p);
  }

  const Event1: string := "{\"id\":\"1\"}"

  /** The stream of `Event1` and the sentinel, written out. */
  lemma EventThenSentinelText()
    ensures Frames([Event1, CompletionMarker]) + "\n" == "data: {\"id\":\"1\"}\n\ndata: [DONE]\n"
  {
    var ps := [Event1, CompletionMarker];
    assert ps[..1] == [Event1];
    assert FrameLines([Event1]) == [Marker + Event1];
    var ls := FrameLines(ps);
    assert ls == [Marker + Event1, "", Marker + CompletionMarker];
    var seps := seq(2, _ => '\n');
    assert seps == "\n\n";
    assert Interleave(ls[2..], seps[2..]) == Marker + CompletionMarker;
    assert Interleave(ls[1..], seps[1..]) == "" + "\n" + (Marker + CompletionMarker);
    assert Interleave(ls, seps) == (Marker + Event1) + "\n" + ("" + "\n" + (Marker + CompletionMarker));
  }

  /** The candidates of that stream are the event and the sentinel. */
  lemma EventThenSentinelCandidates()
    ensures Candidates(Frames([Event1, CompletionMarker]) + "\n") == [Event1, CompletionMarker]
  {
    PlainPayload(Event1);
    SentinelTransportable();
    PlainPayload(CompletionMarker);
    FramesDecode([Event1, CompletionMarker], "\n");
  }

  /** One event followed by the sentinel, in one chunk: exactly one event
      is reported and nothing is held. */
  lemma OneEventThenSentinel<R, E, D>(chunk: string, dec: Decoders<string, R, E, D>)
    requires chunk == "data: {\"id\":\"1\"}\n\ndata: [DONE]\n"
    requires dec.result(Event1).Success?
    ensures Step("", chunk, dec) == Pass("", [Event(dec.result(Event1).value)])
  {
    var ps := [Event1, CompletionMarker];
    assert Candidates("" + chunk) == ps by {
      EventThenSentinelText();
      EventThenSentinelCandidates();
      assert "" + chunk == Frames(ps) + "\n";
    }
    StepOver("", chunk, ps, dec);
    assert Emitted(ps, dec) == Emits(Classify(Event1, false, dec)) + Emits(Classify(CompletionMarker, true, dec)) by {
      assert EmittedUpTo(ps, 1, dec) == Emits(Classify(Event1, false, dec));
    }
  }

  /** The same event cut after `"id"`: the first chunk reports nothing and
      keeps `data: {"id"`; the second completes it into exactly one event. */
  lemma OneEventInTwoChunks<R, E, D>(first: string, second: string, dec: Decoders<string, R, E, D>)
    requires first == "data: {\"id\"" && second == ":\"1\"}\n"
    requires dec.result("{\"id\"").Failure? && dec.apiError("{\"id\"").None?
    requires dec.result(Event1).Success?
    ensures Step("", first, dec) == Pass(first, [])
    ensures Step(first, second, dec) == Pass("", [Event(dec.result(Event1).value)])
  {
    var head, tail := "{\"id\"", ":\"1\"}";
    assert head + tail == Event1;
    assert tail + "\n" == second;
    PlainPayload(head);
    PlainPayload(Event1);
    FramesOfOne(head);
    assert Frames([head]) == first;
    SplitPayloadRecovered(head, tail, "\n", dec);
  }

  /** A single line, with whitespace after it, is all the lines there are. */
  lemma SingleLine(line: string, pad: string)
    requires line != "" && OnOneLine(line)
    requires !IsWhitespaceOrNewline(line[0]) && !IsWhitespaceOrNewline(line[|line| - 1])
    requires forall j :: 0 <= j < |pad| ==> IsWhitespaceOrNewline(pad[j])
    ensures Lines(line + pad) == [line]
  {
    assert PaddedBy(line, IsWhitespaceOrNewline, 0, |line|);
    assert line[0..|line|] == line;
    TrimUnique(line, IsWhitespaceOrNewline, 0, |line|);
    TrimIgnoresPadding("", line, pad, IsWhitespaceOrNewline);
    assert "" + line + pad == line + pad;
    SplitNoSeparator(line, IsNewline);
  }

  /** A line that does not start with the marker yields no candidate. */
  lemma NoMarkerNoCandidates(line: string, pad: string)
    requires line != "" && OnOneLine(line)
    requires !IsWhitespaceOrNewline(line[0]) && !IsWhitespaceOrNewline(line[|line| - 1])
    requires forall j :: 0 <= j < |pad| ==> IsWhitespaceOrNewline(pad[j])
    requires !IsDataLine(line)
    ensures Candidates(line + pad) == []
  {
    SingleLine(line, pad);
    assert [line][..0] == [];
  }

  /** A chunk holding one line that does not start with the marker is
      ignored: nothing is reported and nothing is held. */
  lemma NoMarkerChunkIsSilent<R, E, D>(line: string, pad: string, dec: Decoders<string, R, E, D>)
    requires line != "" && OnOneLine(line)
    requires !IsWhitespaceOrNewline(line[0]) && !IsWhitespaceOrNewline(line[|line| - 1])
    requires forall j :: 0 <= j < |pad| ==> IsWhitespaceOrNewline(pad[j])
    requires !IsDataLine(line)
    ensures Step("", line + pad, dec) == Pass("", [])
  {
    NoMarkerNoCandidates(line, pad);
    assert "" + (line + pad) == line + pad;
  }

  /** The first half of the cut stream, sent alone. */
  lemma FirstHalfSilent<R, E, D>(first: string, dec: Decoders<string, R, E, D>)
    requires first == "da"
    ensures Step("", first, dec) == Pass("", [])
  {
    assert OnOneLine(first);
    assert first + "" == first;
    NoMarkerChunkIsSilent(first, "", dec);
  }

  /** The second half of the cut stream, sent alone. */
  lemma SecondHalfSilent<R, E, D>(second: string, dec: Decoders<string, R, E, D>)
    requires second == "ta: {\"id\":\"1\"}\n"
    ensures Step("", second, dec) == Pass("", [])
  {
    var line := "ta: {\"id\":\"1\"}";
    assert OnOneLine(line);
    assert line + "\n" == second;
    NoMarkerChunkIsSilent(line, "\n", dec);
  }

  /** The candidates of the cut stream sent whole. */
  lemma WholeStreamCandidates(whole: string)
    requires whole == "data: {\"id\":\"1\"}\n"
    ensures Candidates(whole) == [Event1]
  {
    PlainPayload(Event1);
    OneFrameDecodes(Event1, "\n");
    WholeStreamText();
  }

  /** The stream of `Event1` alone, written out. */
  lemma WholeStreamText()
    ensures Frames([Event1]) + "\n" == "data: {\"id\":\"1\"}\n"
  {
    FramesOfOne(Event1);
  }

  /** The cut stream sent whole. */
  lemma WholeStreamFires<R, E, D>(whole: string, dec: Decoders<string, R, E, D>)
    requires whole == "data: {\"id\":\"1\"}\n"
    requires dec.result(Event1).Success?
    ensures Step("", whole, dec) == Pass("", [Event(dec.result(Event1).value)])
  {
    WholeStreamCandidates(whole);
    OneEventChunk(whole, Event1, dec);
  }

  /** The decoder is not a function of the concatenated stream: a chunk
      boundary inside the marker loses the event. Sent as one chunk the text
      reports one event; cut after `da`, neither half is a data line, so
      nothing is reported and nothing is held. */
  lemma CutInsideMarkerLosesEvent<R, E, D>(first: string, second: string, dec: Decoders<string, R, E, D>)
    requires first == "da" && second == "ta: {\"id\":\"1\"}\n"
    requires dec.result(Event1).Success?
    ensures Step("", first + second, dec) == Pass("", [Event(dec.result(Event1).value)])
    ensures Step("", first, dec) == Pass("", [])
    ensures Step("", second, dec) == Pass("", [])
  {
    assert first + second == "data: {\"id\":\"1\"}\n";
    WholeStreamFires(first + second, dec);
    FirstHalfSilent(first, dec);
    SecondHalfSilent(second, dec);
  }

  /** A single data line yields its stripped text, when that is not
      empty. */
  lemma OneDataLine(line: string)
    requires IsDataLine(line) && OnOneLine(line)
    requires !IsWhitespaceOrNewline(line[|line| - 1])
    requires StripMarker(line) != ""
    ensures Candidates(line) == [StripMarker(line)]
  {
    SingleLine(line, "");
    assert line + "" == line;
    assert Seqs.Filter([line], IsDataLine) == [line] by {
      assert [line][..0] == [];
    }
    var stripped := StripMarker(line);
    assert StripMarkers([line]) == [stripped];
    assert Seqs.Filter([stripped], NonEmpty) == [stripped] by {
      assert [stripped][..0] == [];
    }
  }

  /** A second marker inside the payload is removed along with the first. */
  lemma InnerMarkerRemoved(open: string, rest: string)
    requires forall i :: 0 <= i < |open| ==> open[i] != 'd'
    requires !Occurs(Marker, rest)
    ensures StripMarker(Marker + (open + (Marker + rest))) == open + rest
  {
    RemoveLeading(open + (Marker + rest), Marker);
    forall i | 0 <= i < |open| ensures !(Marker <= (open + (Marker + rest))[i..]) {
      assert (open + (Marker + rest))[i..][0] == open[i];
    }
    RemoveKeepsPrefix(open, Marker + rest, Marker);
    RemoveLeading(rest, Marker);
    RemoveAbsent(rest, Marker);
  }

  /** The chunk below, taken apart around its two markers. */
  lemma InnerMarkerText(chunk: string, open: string, rest: string, payload: string)
    requires chunk == "data: {\"t\":\"data: x\"}"
    requires open == "{\"t\":\"" && rest == "x\"}" && payload == "{\"t\":\"x\"}"
    ensures chunk == Marker + (open + (Marker + rest))
    ensures open + rest == payload
    ensures forall i :: 0 <= i < |open| ==> open[i] != 'd'
    ensures forall j :: 0 <= j < |rest| ==> rest[j] != ' '
    ensures IsDataLine(chunk) && OnOneLine(chunk) && !IsWhitespaceOrNewline(chunk[|chunk| - 1])
  {
    assert Marker <= chunk;
  }

  /** The marker is removed wherever it occurs on a data line, not only in
      front: a payload that itself holds `data: ` reaches the decoders
      altered. */
  lemma MarkerInsidePayloadIsRemoved(chunk: string)
    requires chunk == "data: {\"t\":\"data: x\"}"
    ensures Candidates(chunk) == ["{\"t\":\"x\"}"]
  {
    var open, rest, payload := "{\"t\":\"", "x\"}", "{\"t\":\"x\"}";
    InnerMarkerText(chunk, open, rest, payload);
    NoSpaceNoMarker(rest);
    InnerMarkerRemoved(open, rest);
    OneDataLine(chunk);
  }
}

=== FILE: streaming_properties.dfy ===
/** What the chunk decoder of `StreamingSession` guarantees, and what it
    does not: how callbacks line up with payloads, the shape of the
    reassembly buffer, recovery of a payload split across two chunks, and
    the order of callbacks over a whole session. */
module StreamingProperties {
  import opened Wrappers
  import opened Text
  import Seqs
  import opened StreamingSession

  // ---------------------------------------------------------------------
  // Callbacks line up with candidates
  // ---------------------------------------------------------------------

  /** Whether candidate `i` of the pass fires a callback. */
  predicate Fires<R, E, D>(cands: seq<string>, i: int, dec: Decoders<string, R, E, D>)
    requires 0 <= i < |cands|
  {
    Classify(cands[i], i == |cands| - 1, dec).Emit?
  }

  /** The positions, among the first `n`, of the candidates that fire a
      callback, in increasing order. */
  function FiringIndices<R, E, D>(cands: seq<string>, n: nat, dec: Decoders<string, R, E, D>): (r: seq<int>)
    requires n <= |cands|
    ensures forall k :: 0 <= k < |r| ==> 0 <= r[k] < n
  {
    if n == 0 then []
    else FiringIndices(cands, n - 1, dec) + (if Fires(cands, n - 1, dec) then [n - 1] else [])
  }

  predicate Increasing(xs: seq<int>) {
    forall k, l :: 0 <= k < l < |xs| ==> xs[k] < xs[l]
  }

  /** The firing positions are strictly increasing. */
  lemma {:induction false} FiringIncreasing<R, E, D>(cands: seq<string>, n: nat, dec: Decoders<string, R, E, D>)
    requires n <= |cands|
    ensures Increasing(FiringIndices(cands, n, dec))
    decreases n
  {
    if n > 0 {
      var ix0 := FiringIndices(cands, n - 1, dec);
      FiringIncreasing(cands, n - 1, dec);
      var ix := FiringIndices(cands, n, dec);
      assert ix == ix0 + (if Fires(cands, n - 1, dec) then [n - 1] else []);
      forall k, l | 0 <= k < l < |ix| ensures ix[k] < ix[l] {
        if l < |ix0| {
          assert ix[k] == ix0[k] && ix[l] == ix0[l];
        } else {
          assert ix[l] == n - 1 && ix[k] == ix0[k] < n - 1;
        }
      }
    }
  }

  /** A position is a firing position exactly when its candidate fires. */
  lemma {:induction false} FiringComplete<R, E, D>(cands: seq<string>, n: nat, dec: Decoders<string, R, E, D>)
    requires n <= |cands|
    ensures forall i :: 0 <= i < n ==> (i in FiringIndices(cands, n, dec) <==> Fires(cands, i, dec))
    decreases n
  {
    if n > 0 {
      FiringComplete(cands, n - 1, dec);
      var ix0 := FiringIndices(cands, n - 1, dec);
      var ix := FiringIndices(cands, n, dec);
      forall i | 0 <= i < n ensures i in ix <==> Fires(cands, i, dec) {
        if i < n - 1 {
          assert i !in (if Fires(cands, n - 1, dec) then [n - 1] else []);
          assert i in ix <==> i in ix0;
        }
      }
    }
  }

  /** Each callback of a pass comes from exactly one candidate, and the
      `k`-th callback is the outcome of the `k`-th candidate that fires one. */
  lemma {:induction false} EmissionsMatchFiring<R, E, D>(cands: seq<string>, n: nat, dec: Decoders<string, R, E, D>)
    requires n <= |cands|
    ensures var ix, em := FiringIndices(cands, n, dec), EmittedUpTo(cands, n, dec);
      && |em| == |ix|
      && forall k :: 0 <= k < |ix| ==> 0 <= ix[k] < |cands| && Classify(cands[ix[k]], ix[k] == |cands| - 1, dec) == Emit(em[k])
    decreases n
  {
    if n > 0 {
      EmissionsMatchFiring(cands, n - 1, dec);
      var o := Classify(cands[n - 1], n == |cands|, dec);
      var ix0, em0 := FiringIndices(cands, n - 1, dec), EmittedUpTo(cands, n - 1, dec);
      var ix, em := FiringIndices(cands, n, dec), EmittedUpTo(cands, n, dec);
      assert em == em0 + Emits(o);
      forall k | 0 <= k < |ix|
        ensures 0 <= ix[k] < |cands| && Classify(cands[ix[k]], ix[k] == |cands| - 1, dec) == Emit(em[k])
      {
        if k < |ix0| {
          assert ix[k] == ix0[k] && em[k] == em0[k];
        } else {
          assert ix[k] == n - 1 && em[k] == o.emission;
        }
      }
    }
  }

  /** The callbacks of a pass line up with its candidates: the candidates
      that fire are exactly those whose outcome is a callback, each fires
      exactly one, and the callbacks come in the order of their candidates. */
  lemma EmissionsFollowCandidates<R, E, D>(cands: seq<string>, dec: Decoders<string, R, E, D>)
    ensures var ix, em := FiringIndices(cands, |cands|, dec), Emitted(cands, dec);
      && |em| == |ix|
      && (forall k :: 0 <= k < |ix| ==> 0 <= ix[k] < |cands| && Classify(cands[ix[k]], ix[k] == |cands| - 1, dec) == Emit(em[k]))
      && Increasing(ix)
      && (forall i :: 0 <= i < |cands| ==> (i in ix <==> Classify(cands[i], i == |cands| - 1, dec).Emit?))
  {
    EmissionsMatchFiring(cands, |cands|, dec);
    FiringIncreasing(cands, |cands|, dec);
    FiringComplete(cands, |cands|, dec);
  }

  /** The payloads that are not the sentinel. */
  function Payloads(cands: seq<string>): seq<string> {
    Seqs.Filter(cands, IsPayload)
  }

  predicate IsPayload(c: string) {
    c != CompletionMarker
  }

  /** `onReceiveContent` once for every payload, in order. */
  function EventsOf<R, E, D>(ps: seq<string>, dec: Decoders<string, R, E, D>): seq<Emission<R, E, D>>
    requires forall i :: 0 <= i < |ps| ==> dec.result(ps[i]).Success?
  {
    seq(|ps|, i requires 0 <= i < |ps| && dec.result(ps[i]).Success? => Event(dec.result(ps[i]).value))
  }

  /** Every payload taken from candidates that decode decodes. */
  lemma PayloadsDecode<R, E, D>(cands: seq<string>, dec: Decoders<string, R, E, D>)
    requires forall i :: 0 <= i < |cands| && cands[i] != CompletionMarker ==> dec.result(cands[i]).Success?
    ensures forall i :: 0 <= i < |Payloads(cands)| ==> dec.result(Payloads(cands)[i]).Success?
  {
    var ps := Payloads(cands);
    Seqs.FilterMembers(cands, IsPayload);
    forall i | 0 <= i < |ps| ensures dec.result(ps[i]).Success? {
      assert ps[i] in cands;
    }
  }

  /** A candidate appended to a pass adds itself to the payloads, unless
      it is the sentinel. */
  lemma PayloadsSnoc(cs: seq<string>, c: string)
    ensures Payloads(cs + [c]) == Payloads(cs) + (if c != CompletionMarker then [c] else [])
  {
    Seqs.FilterConcat(cs, [c], IsPayload);
    assert [c][..0] == [];
  }

  /** One more decoded payload adds one more event at the end. */
  lemma EventsSnoc<R, E, D>(ps: seq<string>, c: string, dec: Decoders<string, R, E, D>)
    requires forall i :: 0 <= i < |ps| ==> dec.result(ps[i]).Success?
    requires dec.result(c).Success?
    ensures forall i :: 0 <= i < |ps + [c]| ==> dec.result((ps + [c])[i]).Success?
    ensures EventsOf(ps + [c], dec) == EventsOf(ps, dec) + [Event(dec.result(c).value)]
  {
  }

  lemma {:induction false} AllDecodedUpTo<R, E, D>(cands: seq<string>, n: nat, dec: Decoders<string, R, E, D>)
    requires n <= |cands|
    requires forall i :: 0 <= i < |cands| ==> cands[i] != ""
    requires forall i :: 0 <= i < |cands| && cands[i] != CompletionMarker ==> dec.result(cands[i]).Success?
    ensures forall i :: 0 <= i < |Payloads(cands[..n])| ==> dec.result(Payloads(cands[..n])[i]).Success?
    ensures EmittedUpTo(cands, n, dec) == EventsOf(Payloads(cands[..n]), dec)
    decreases n
  {
    PayloadsDecode(cands[..n], dec);
    if n > 0 {
      var c := cands[n - 1];
      var ps0 := Payloads(cands[..n - 1]);
      AllDecodedUpTo(cands, n - 1, dec);
      assert cands[..n] == cands[..n - 1] + [c];
      PayloadsSnoc(cands[..n - 1], c);
      if c != CompletionMarker {
        EventsSnoc(ps0, c, dec);
        assert Classify(c, n == |cands|, dec) == Emit(Event(dec.result(c).value));
      } else {
        assert ps0 + [] == ps0;
      }
    }
  }

  /** A chunk whose payloads all decode fires `onReceiveContent` once per
      payload that is not the sentinel, in the order of the payloads, fires
      nothing else and leaves the buffer empty. */
  lemma AllDecodedEventsInOrder<R, E, D>(buffer: string, content: string, dec: Decoders<string, R, E, D>)
    requires content != ""
    requires var cs := Candidates(buffer + content);
      && |cs| > 0 && cs[0] != CompletionMarker
      && forall i :: 0 <= i < |cs| && cs[i] != CompletionMarker ==> dec.result(cs[i]).Success?
    ensures var cs := Candidates(buffer + content);
      && (forall i :: 0 <= i < |Payloads(cs)| ==> dec.result(Payloads(cs)[i]).Success?)
      && Step(buffer, content, dec) == Pass("", EventsOf(Payloads(cs), dec))
  {
    var cs := Candidates(buffer + content);
    AllDecodedUpTo(cs, |cs|, dec);
    assert cs[..|cs|] == cs;
  }

  // ---------------------------------------------------------------------
  // The reassembly buffer
  // ---------------------------------------------------------------------

  /** At most one fragment, on one line, put back behind the marker. */
  predicate WellFormedBuffer(b: string) {
    || b == ""
    || (&& Marker <= b
        && b[|Marker|..] != ""
        && b[|Marker|..] != CompletionMarker
        && forall j :: 0 <= j < |b| ==> !IsNewline(b[j]))
  }

  /** A fragment put back behind the marker is a well-formed buffer. */
  lemma TaggedFragmentWellFormed(p: string)
    requires p != "" && p != CompletionMarker
    requires forall j :: 0 <= j < |p| ==> !IsNewline(p[j])
    ensures WellFormedBuffer(Marker + p)
  {
    var b := Marker + p;
    assert b[|Marker|..] == p;
    forall j | 0 <= j < |b| ensures !IsNewline(b[j]) {
      if j >= |Marker| {
        assert b[j] == p[j - |Marker|];
      }
    }
  }

  /** One pass over a chunk leaves a well-formed buffer behind, or keeps
      the old one. */
  lemma StepKeepsBufferWellFormed<R, E, D>(buffer: string, content: string, dec: Decoders<string, R, E, D>)
    requires WellFormedBuffer(buffer)
    ensures WellFormedBuffer(Step(buffer, content, dec).buffer)
  {
    var r := Step(buffer, content, dec);
    if content != "" && r.buffer != "" {
      var cs := Candidates(buffer + content);
      var p := cs[|cs| - 1];
      TaggedFragmentWellFormed(p);
    }
  }

  /** Whatever the buffer held before, one received chunk leaves a
      well-formed buffer behind, or keeps the old one. */
  lemma ReceiveKeepsBufferWellFormed<R, E, D>(buffer: string, data: seq<byte>, utf8: seq<byte> -> Option<string>,
                                              dec: Decoders<string, R, E, D>)
    requires WellFormedBuffer(buffer)
    ensures WellFormedBuffer(DidReceive(buffer, data, utf8, dec).buffer)
  {
    if utf8(data).Some? {
      StepKeepsBufferWellFormed(buffer, utf8(data).value, dec);
    }
  }

  /** The session's chunk handler, `didReceive` with its text decoding and
      its JSON decoders fixed. */
  function Receiver<R, E, D>(utf8: seq<byte> -> Option<string>, dec: Decoders<string, R, E, D>)
    : (string, seq<byte>) -> Pass<R, E, D>
  {
    (buffer, data) => DidReceive(buffer, data, utf8, dec)
  }

  /** The chunks of a session handed to `receive` in order, starting from
      `buffer`: the final buffer and every callback fired, chunk after
      chunk. */
  function Feed<R, E, D>(buffer: string, chunks: seq<seq<byte>>, receive: (string, seq<byte>) -> Pass<R, E, D>)
    : Pass<R, E, D>
    decreases |chunks|
  {
    if |chunks| == 0 then Pass(buffer, [])
    else
      var first := receive(buffer, chunks[0]);
      var rest := Feed(first.buffer, chunks[1..], receive);
      Pass(rest.buffer, first.emitted + rest.emitted)
  }

  /** Chunks are handled one after the other: feeding two runs of chunks is
      feeding the first and then the second from where it left the buffer,
      and the callbacks of the first all come before those of the second. */
  lemma {:induction false} FeedConcat<R, E, D>(buffer: string, xs: seq<seq<byte>>, ys: seq<seq<byte>>,
                                               receive: (string, seq<byte>) -> Pass<R, E, D>)
    ensures var a := Feed(buffer, xs, receive);
      var b := Feed(a.buffer, ys, receive);
      Feed(buffer, xs + ys, receive) == Pass(b.buffer, a.emitted + b.emitted)
    decreases |xs|
  {
    if |xs| == 0 {
      assert xs + ys == ys;
    } else {
      var first := receive(buffer, xs[0]);
      assert (xs + ys)[0] == xs[0] && (xs + ys)[1..] == xs[1..] + ys;
      FeedConcat(first.buffer, xs[1..], ys, receive);
    }
  }

  lemma {:induction false} FeedKeepsInvariant<R, E, D>(buffer: string, chunks: seq<seq<byte>>,
                                                        receive: (string, seq<byte>) -> Pass<R, E, D>)
    requires WellFormedBuffer(buffer)
    requires forall b, d :: WellFormedBuffer(b) ==> WellFormedBuffer(receive(b, d).buffer)
    ensures WellFormedBuffer(Feed(buffer, chunks, receive).buffer)
    decreases |chunks|
  {
    if |chunks| > 0 {
      FeedKeepsInvariant(receive(buffer, chunks[0]).buffer, chunks[1..], receive);
    }
  }

  /** Over a whole session, starting from the empty buffer, the buffer never
      holds more than one fragment, on one line, behind the marker. */
  lemma SessionBufferWellFormed<R, E, D>(chunks: seq<seq<byte>>, utf8: seq<byte> -> Option<string>,
                                         dec: Decoders<string, R, E, D>)
    ensures WellFormedBuffer(Feed("", chunks, Receiver(utf8, dec)).buffer)
  {
    var receive := Receiver(utf8, dec);
    forall b, d | WellFormedBuffer(b) ensures WellFormedBuffer(receive(b, d).buffer) {
      ReceiveKeepsBufferWellFormed(b, d, utf8, dec);
    }
    FeedKeepsInvariant("", chunks, receive);
  }

  // ---------------------------------------------------------------------
  // A whole session
  // ---------------------------------------------------------------------

  /** What the transport delivers to the session's delegate: a chunk
      (`didReceive data`) or the end of the connection
      (`didCompleteWithError`, with the transport error if any). */
  datatype Delivery<T> = Chunk(data: seq<byte>) | Closed(error: Option<T>)

  /** A callback seen by the owner of the session. */
  datatype Callback<R, E, D, T> = Fired(emission: Emission<R, E, D>) | Finished(error: Option<T>)

  function Fire<R, E, D, T>(em: seq<Emission<R, E, D>>): (r: seq<Callback<R, E, D, T>>)
    ensures |r| == |em| && forall k :: 0 <= k < |em| ==> r[k] == Fired(em[k])
  {
    seq(|em|, k requires 0 <= k < |em| => Fired(em[k]))
  }

  /** The callbacks of a session, delivery after delivery. Completion hands
      the transport's error to `onComplete` and nothing else: a fragment
      still in the buffer is not reported. */
  function Run<R, E, D, T>(buffer: string, ds: seq<Delivery<T>>, receive: (string, seq<byte>) -> Pass<R, E, D>)
    : seq<Callback<R, E, D, T>>
    decreases |ds|
  {
    if |ds| == 0 then []
    else match ds[0]
      case Chunk(data) =>
        var p := receive(buffer, data);
        Fire(p.emitted) + Run(p.buffer, ds[1..], receive)
      case Closed(e) => [Finished(e)] + Run(buffer, ds[1..], receive)
  }

  function Chunks<T>(chunks: seq<seq<byte>>): (r: seq<Delivery<T>>)
    ensures |r| == |chunks| && forall k :: 0 <= k < |chunks| ==> r[k] == Chunk(chunks[k])
  {
    seq(|chunks|, k requires 0 <= k < |chunks| => Chunk(chunks[k]))
  }

  /** A transport that delivers chunks and then closes the connection once
      makes the session fire the callbacks of the chunks, in order, and then
      `onComplete` exactly once, last, with the transport's error. */
  lemma {:induction false} SessionEndsWithOneCompletion<R, E, D, T>(buffer: string, chunks: seq<seq<byte>>, e: Option<T>,
                                                                     receive: (string, seq<byte>) -> Pass<R, E, D>)
    ensures Run(buffer, Chunks<T>(chunks) + [Closed(e)], receive)
         == Fire(Feed(buffer, chunks, receive).emitted) + [Finished(e)]
    decreases |chunks|
  {
    var ds := Chunks<T>(chunks) + [Closed(e)];
    if |chunks| == 0 {
      assert ds == [Closed(e)];
      assert ds[1..] == [];
    } else {
      var first := receive(buffer, chunks[0]);
      var rest := Feed(first.buffer, chunks[1..], receive);
      assert ds[0] == Chunk(chunks[0]);
      assert ds[1..] == Chunks<T>(chunks[1..]) + [Closed(e)];
      SessionEndsWithOneCompletion(first.buffer, chunks[1..], e, receive);
      assert Fire<R, E, D, T>(first.emitted + rest.emitted) == Fire(first.emitted) + Fire(rest.emitted);
    }
  }
}

=== FILE: streaming_session.dfy ===
/** One streamed chat-completion session: the chunk decoder behind
    `StreamingSession` (Sources/OpenAI/Private/StreamingSession.swift).

    The session's only state is the reassembly buffer `previousChunkBuffer`.
    Each transport chunk is one step from the old buffer to a new buffer plus
    the callbacks fired on the way, in order. JSON decoding is not modelled:
    the two decoders the session tries are parameters (`Decoders`). */
module StreamingSession {
  import opened Wrappers
  import opened Text
  import Seqs

  newtype byte = x: int | 0 <= x < 256

  /** The Server-Sent Events field prefix the decoder looks for. */
  const Marker: string := "data: "

  /** The payload that ends a stream (`streamingCompletionMarker`). */
  const CompletionMarker: string := "[DONE]"

  /** One call of the session's callbacks while a chunk is processed:
      `onReceiveContent` with a decoded value, or `onProcessingError` with a
      structured API error, the generic decode error, or `unknownContent`. */
  datatype Emission<R, E, D> =
    | Event(value: R)
    | ApiError(apiError: E)
    | DecodeError(decodeError: D)
    | UnknownContent

  /** The two JSON decodings the session attempts on a payload: the result
      type (failing with a decode error `D`) and `APIErrorResponse`. */
  datatype Decoders<!In, R, E, D> = Decoders(result: In -> Result<R, D>, apiError: In -> Option<E>)

  /** What happens to one candidate payload. */
  datatype Outcome<R, E, D> =
    | Skip
    | Emit(emission: Emission<R, E, D>)
    | Hold(fragment: string)

  /** The buffer after a step and the callbacks fired during it. */
  datatype Pass<R, E, D> = Pass(buffer: string, emitted: seq<Emission<R, E, D>>)

  // ---------------------------------------------------------------------
  // From text to candidate payloads
  // ---------------------------------------------------------------------

  /** The combined text trimmed of whitespace and newlines, then cut at
      every newline character. */
  function Lines(text: string): seq<string> {
    SplitBy(Trim(text, IsWhitespaceOrNewline), IsNewline)
  }

  predicate IsDataLine(line: string) {
    Marker <= line
  }

  /** `replacingOccurrences(of: "data: ", with: "")`. */
  function StripMarker(line: string): string {
    RemoveOccurrences(line, Marker)
  }

  /** Every line with the marker stripped, line by line. */
  function StripMarkers(lines: seq<string>): (r: seq<string>)
    ensures |r| == |lines|
    ensures forall i :: 0 <= i < |lines| ==> r[i] == StripMarker(lines[i])
  {
    seq(|lines|, i requires 0 <= i < |lines| => StripMarker(lines[i]))
  }

  /** The `jsonObjects` of one pass: the data lines, each with every
      occurrence of the marker removed, empty results dropped. */
  function Candidates(text: string): (r: seq<string>)
    ensures forall i :: 0 <= i < |r| ==> r[i] != ""
    ensures forall i, j :: 0 <= i < |r| && 0 <= j < |r[i]| ==> !IsNewline(r[i][j])
  {
    var dataLines := Seqs.Filter(Lines(text), IsDataLine);
    var payloads := StripMarkers(dataLines);
    var r := Seqs.Filter(payloads, NonEmpty);
    Seqs.FilterMembers(Lines(text), IsDataLine);
    Seqs.FilterMembers(payloads, NonEmpty);
    assert forall i :: 0 <= i < |r| ==> r[i] != "" by {
      forall i | 0 <= i < |r| ensures r[i] != "" {
        assert r[i] in r;
      }
    }
    assert forall i, j :: 0 <= i < |r| && 0 <= j < |r[i]| ==> !IsNewline(r[i][j]) by {
      forall i, j | 0 <= i < |r| && 0 <= j < |r[i]| ensures !IsNewline(r[i][j]) {
        assert r[i] in payloads;
        var k :| 0 <= k < |payloads| && payloads[k] == r[i];
        assert r[i][j] in dataLines[k];
        var m :| 0 <= m < |dataLines[k]| && dataLines[k][m] == r[i][j];
        assert dataLines[k] in Lines(text);
        var l :| 0 <= l < |Lines(text)| && Lines(text)[l] == dataLines[k];
      }
    }
    r
  }

  // ---------------------------------------------------------------------
  // One pass
  // ---------------------------------------------------------------------

  /** The fate of candidate `c`: the sentinel and the empty payload are
      skipped; otherwise a decoded result wins, then a decoded API error; a
      payload that is neither is held back when it is the last candidate and
      reported as a decode error when it is not. */
  function Classify<R, E, D>(c: string, isLast: bool, dec: Decoders<string, R, E, D>): (o: Outcome<R, E, D>)
    ensures o.Hold? ==> isLast && o.fragment == c
    ensures o.Emit? ==> !o.emission.UnknownContent?
  {
    if c == CompletionMarker || c == "" then Skip
    else match dec.result(c)
      case Success(x) => Emit(Event(x))
      case Failure(d) =>
        match dec.apiError(c)
        case Some(e) => Emit(ApiError(e))
        case None => if isLast then Hold(c) else Emit(DecodeError(d))
  }

  function Emits<R, E, D>(o: Outcome<R, E, D>): seq<Emission<R, E, D>> {
    if o.Emit? then [o.emission] else []
  }

  /** The callbacks fired for the first `n` candidates of the pass. */
  function EmittedUpTo<R, E, D>(cands: seq<string>, n: nat, dec: Decoders<string, R, E, D>): (r: seq<Emission<R, E, D>>)
    requires n <= |cands|
    ensures |r| <= n
    ensures forall k :: 0 <= k < |r| ==> !r[k].UnknownContent?
  {
    if n == 0 then []
    else EmittedUpTo(cands, n - 1, dec) + Emits(Classify(cands[n - 1], n == |cands|, dec))
  }

  /** The callbacks fired for all candidates of the pass. */
  function Emitted<R, E, D>(cands: seq<string>, dec: Decoders<string, R, E, D>): seq<Emission<R, E, D>> {
    EmittedUpTo(cands, |cands|, dec)
  }

  /** The buffer a pass leaves behind: the last candidate put back behind
      the marker when it is held, empty otherwise. */
  function Held<R, E, D>(cands: seq<string>, dec: Decoders<string, R, E, D>): (r: string)
    ensures r != "" <==>
      && |cands| > 0 && cands[|cands| - 1] != CompletionMarker && cands[|cands| - 1] != ""
      && dec.result(cands[|cands| - 1]).Failure? && dec.apiError(cands[|cands| - 1]).None?
    ensures r != "" ==> r == Marker + cands[|cands| - 1]
  {
    if |cands| == 0 then ""
    else match Classify(cands[|cands| - 1], true, dec)
      case Hold(p) => Marker + p
      case _ => ""
  }

  /** The last candidate of the pass failed both decoders, so it is taken
      for the head of a payload cut off by the chunk boundary. */
  predicate EndsInFragment<R, E, D>(cands: seq<string>, dec: Decoders<string, R, E, D>) {
    && |cands| > 0
    && cands[0] != CompletionMarker
    && cands[|cands| - 1] != CompletionMarker
    && dec.result(cands[|cands| - 1]).Failure?
    && dec.apiError(cands[|cands| - 1]).None?
  }

  /** `processJSON(from:)`: one chunk of decoded text processed against the
      buffer left by the previous chunk. */
  function Step<R, E, D>(buffer: string, content: string, dec: Decoders<string, R, E, D>): (r: Pass<R, E, D>)
    // An empty chunk changes nothing; in particular the buffer is kept.
    ensures content == "" ==> r == Pass(buffer, [])
    // Otherwise the buffer is cleared, and refilled only with the last
    // candidate, put back behind the marker, when that one failed both
    // decoders.
    ensures content != "" ==>
      var cs := Candidates(buffer + content);
      && (r.buffer != "" <==> EndsInFragment(cs, dec))
      && (r.buffer != "" ==> r.buffer == Marker + cs[|cs| - 1])
    // No candidate, or the sentinel first: nothing is reported.
    ensures content != "" ==>
      var cs := Candidates(buffer + content);
      (|cs| == 0 || cs[0] == CompletionMarker) ==> r == Pass("", [])
    ensures |r.emitted| <= |Candidates(buffer + content)|
    ensures forall k :: 0 <= k < |r.emitted| ==> !r.emitted[k].UnknownContent?
  {
    if content == "" then Pass(buffer, [])
    else
      var cands := Candidates(buffer + content);
      if |cands| == 0 || cands[0] == CompletionMarker then Pass("", [])
      else
        var held := Held(cands, dec);
        assert held != "" <==> EndsInFragment(cands, dec) by {
          assert cands[|cands| - 1] != "";
        }
        Pass(held, Emitted(cands, dec))
  }

  /** `urlSession(_:dataTask:didReceive:)`: the chunk's bytes are decoded as
      UTF-8 text by `utf8` (`String(data:encoding:)`); bytes that are not
      text are reported once as unknown content and otherwise ignored. */
  function DidReceive<R, E, D>(buffer: string, data: seq<byte>, utf8: seq<byte> -> Option<string>,
                               dec: Decoders<string, R, E, D>): (r: Pass<R, E, D>)
    ensures utf8(data).None? ==> r == Pass(buffer, [UnknownContent])
    ensures utf8(data).Some? ==> r == Step(buffer, utf8(data).value, dec)
    ensures UnknownContent in r.emitted <==> utf8(data).None?
  {
    match utf8(data)
    case None => Pass(buffer, [UnknownContent])
    case Some(text) => Step(buffer, text, dec)
  }

  /** `processJSON(from:)` as written: the buffer is a variable that the
      loop over `jsonObjects.enumerated()` may overwrite at the last index. */
  method ProcessJSON<R, E, D>(buffer: string, content: string, dec: Decoders<string, R, E, D>)
    returns (previousChunkBuffer: string, emitted: seq<Emission<R, E, D>>)
    ensures Pass(previousChunkBuffer, emitted) == Step(buffer, content, dec)
  {
    previousChunkBuffer, emitted := buffer, [];
    if content == "" {
      return;
    }
    var jsonObjects := Candidates(buffer + content);
    previousChunkBuffer := "";
    if |jsonObjects| == 0 || jsonObjects[0] == CompletionMarker {
      return;
    }
    assert Step(buffer, content, dec) == Pass(Held(jsonObjects, dec), Emitted(jsonObjects, dec));
    var index := 0;
    while index < |jsonObjects|
      invariant 0 <= index <= |jsonObjects|
      invariant emitted == EmittedUpTo(jsonObjects, index, dec)
      invariant previousChunkBuffer == if index == |jsonObjects| then Held(jsonObjects, dec) else ""
    {
      var jsonContent := jsonObjects[index];
      assert EmittedUpTo(jsonObjects, index + 1, dec)
          == emitted + Emits(Classify(jsonContent, index + 1 == |jsonObjects|, dec));
      if jsonContent != CompletionMarker && jsonContent != "" {
        match dec.result(jsonContent)
        case Success(value) =>
          emitted := emitted + [Event(value)];
        case Failure(error) =>
          match dec.apiError(jsonContent)
          case Some(decoded) =>
            emitted := emitted + [ApiError(decoded)];
          case None =>
            if index == |jsonObjects| - 1 {
              previousChunkBuffer := Marker + jsonContent;
            } else {
              emitted := emitted + [DecodeError(error)];
            }
      }
      index := index + 1;
    }
  }
}

=== FILE: text.dfy ===
/** The Foundation string operations the client relies on, over `seq<char>`:
    `trimmingCharacters(in:)`, `components(separatedBy:)` with a character
    set, `joined(separator:)` and `replacingOccurrences(of:with: "")`. */
module Text {
  import Seqs

  /** Foundation's `CharacterSet.newlines`: U+000A to U+000D, U+0085, U+2028
      and U+2029. */
  predicate IsNewline(c: char) {
    '\n' <= c <= '\r' || c == '\U{85}' || c == '\U{2028}' || c == '\U{2029}'
  }

  /** Foundation's `CharacterSet.whitespacesAndNewlines`: the Unicode space
      separators (general category Zs), tab, the line and paragraph
      separators, and the newlines above. */
  predicate IsWhitespaceOrNewline(c: char) {
    || c == '\t' || IsNewline(c)
    || c == ' ' || c == '\U{A0}' || c == '\U{1680}' || '\U{2000}' <= c <= '\U{200A}'
    || c == '\U{202F}' || c == '\U{205F}' || c == '\U{3000}'
  }

  predicate IsSlash(c: char) {
    c == '/'
  }

  /** `!isEmpty`. */
  predicate NonEmpty(s: string) {
    s != ""
  }

  // ---------------------------------------------------------------------
  // Trimming
  // ---------------------------------------------------------------------

  /** `s` without its longest prefix of `strip` characters. */
  function TrimStart(s: string, strip: char -> bool): (r: string)
    ensures |r| <= |s| && r == s[|s| - |r|..]
    ensures forall i :: 0 <= i < |s| - |r| ==> strip(s[i])
    ensures |r| > 0 ==> !strip(r[0])
    decreases |s|
  {
    if |s| > 0 && strip(s[0]) then TrimStart(s[1..], strip) else s
  }

  /** `s` without its longest suffix of `strip` characters. */
  function TrimEnd(s: string, strip: char -> bool): (r: string)
    ensures |r| <= |s| && r == s[..|r|]
    ensures forall i :: |r| <= i < |s| ==> strip(s[i])
    ensures |r| > 0 ==> !strip(r[|r| - 1])
    decreases |s|
  {
    if |s| > 0 && strip(s[|s| - 1]) then TrimEnd(s[..|s| - 1], strip) else s
  }

  /** Every character of `s` outside `s[a..b]` is a `strip` character. */
  ghost predicate PaddedBy(s: string, strip: char -> bool, a: int, b: int)
  {
    && 0 <= a <= b <= |s|
    && (forall i :: 0 <= i < a ==> strip(s[i]))
    && (forall i :: b <= i < |s| ==> strip(s[i]))
  }

  /** `t` sits at offset `a` of `s`, with only `strip` characters around it. */
  ghost predicate CoreAt(t: string, s: string, strip: char -> bool, a: int)
  {
    PaddedBy(s, strip, a, a + |t|) && t == s[a..a + |t|]
  }

  /** `trimmingCharacters(in:)`: both ends of `s` stripped of `strip`
      characters; the interior is left alone. */
  function Trim(s: string, strip: char -> bool): (r: string)
    ensures |r| > 0 ==> !strip(r[0]) && !strip(r[|r| - 1])
    ensures exists a :: CoreAt(r, s, strip, a)
  {
    var u := TrimStart(s, strip);
    var r := TrimEnd(u, strip);
    assert CoreAt(r, s, strip, |s| - |u|);
    r
  }

  /** Trimming is the only slice with both properties above: any slice whose
      outside is strippable and whose ends are not is the trim. */
  lemma {:induction false} TrimUnique(s: string, strip: char -> bool, a: int, b: int)
    requires PaddedBy(s, strip, a, b)
    requires a < b ==> !strip(s[a]) && !strip(s[b - 1])
    ensures Trim(s, strip) == s[a..b]
  {
    var u := TrimStart(s, strip);
    var k := |s| - |u|;
    assert |u| > 0 ==> u[0] == s[k];
    if a < b {
      assert k == a;
      var r := TrimEnd(u, strip);
      assert |r| > 0 ==> r[|r| - 1] == s[k + |r| - 1];
      assert u[b - 1 - k] == s[b - 1];
      assert k + |r| == b;
    } else {
      assert forall i :: 0 <= i < |s| ==> strip(s[i]);
      assert |u| == 0;
    }
  }

  /** Trimming twice is trimming once. */
  lemma TrimIdempotent(s: string, strip: char -> bool)
    ensures Trim(Trim(s, strip), strip) == Trim(s, strip)
  {
    var t := Trim(s, strip);
    assert t[0..|t|] == t;
    assert PaddedBy(t, strip, 0, |t|);
    TrimUnique(t, strip, 0, |t|);
  }

  /** Strippable characters added at either end do not change the trim. */
  lemma TrimIgnoresPadding(x: string, s: string, y: string, strip: char -> bool)
    requires forall i :: 0 <= i < |x| ==> strip(x[i])
    requires forall i :: 0 <= i < |y| ==> strip(y[i])
    ensures Trim(x + s + y, strip) == Trim(s, strip)
  {
    var t := Trim(s, strip);
    var a :| CoreAt(t, s, strip, a);
    var w := x + s + y;
    var lo, hi := |x| + a, |x| + a + |t|;
    assert w[lo..hi] == t;
    assert forall i :: 0 <= i < |x| ==> w[i] == x[i];
    assert forall i :: |x| <= i < |x| + |s| ==> w[i] == s[i - |x|];
    assert forall i :: |x| + |s| <= i < |w| ==> w[i] == y[i - |x| - |s|];
    assert PaddedBy(w, strip, lo, hi);
    TrimUnique(w, strip, lo, hi);
  }

  // ---------------------------------------------------------------------
  // Splitting and joining
  // ---------------------------------------------------------------------

  /** `components(separatedBy:)` with a character set: the pieces of `s`
      between separator characters. Every separator character ends a piece,
      so adjacent separators yield an empty piece. */
  function SplitBy(s: string, isSep: char -> bool): (r: seq<string>)
    ensures |r| >= 1
    ensures forall i, j :: 0 <= i < |r| && 0 <= j < |r[i]| ==> !isSep(r[i][j])
    decreases |s|
  {
    if |s| == 0 then [""]
    else
      var rest := SplitBy(s[1..], isSep);
      if isSep(s[0]) then [""] + rest
      else [[s[0]] + rest[0]] + rest[1..]
  }

  /** The separator characters of `s`, in order. */
  function Separators(s: string, isSep: char -> bool): string {
    Seqs.Filter(s, isSep)
  }

  /** `parts[0] + [seps[0]] + parts[1] + ... + parts[n]`. */
  function Interleave(parts: seq<string>, seps: string): string
    requires |parts| == |seps| + 1
    decreases |seps|
  {
    if |seps| == 0 then parts[0]
    else parts[0] + [seps[0]] + Interleave(parts[1..], seps[1..])
  }

  /** `joined(separator:)` with a one-character separator. */
  function Join(xs: seq<string>, sep: char): string {
    if |xs| == 0 then "" else Interleave(xs, seq(|xs| - 1, _ => sep))
  }

  lemma {:induction false} SeparatorsCons(c: char, s: string, isSep: char -> bool)
    ensures Separators([c] + s, isSep) == (if isSep(c) then [c] else []) + Separators(s, isSep)
  {
    Seqs.FilterConcat([c], s, isSep);
    assert [c][..0] == [];
  }

  /** Text glued to the front of the first piece comes out in front. */
  lemma InterleaveFront(w: string, parts: seq<string>, seps: string)
    requires |parts| == |seps| + 1
    ensures Interleave([w + parts[0]] + parts[1..], seps) == w + Interleave(parts, seps)
  {
    var glued := [w + parts[0]] + parts[1..];
    assert glued[0] == w + parts[0];
    if |seps| > 0 {
      assert glued[1..] == parts[1..];
    }
  }

  /** Splitting loses nothing: putting the separators back between the
      pieces rebuilds the text, and there is one more piece than there are
      separators. */
  lemma {:induction false} SplitRebuilds(s: string, isSep: char -> bool)
    ensures |SplitBy(s, isSep)| == |Separators(s, isSep)| + 1
    ensures Interleave(SplitBy(s, isSep), Separators(s, isSep)) == s
    decreases |s|
  {
    if |s| > 0 {
      var c, tail := s[0], s[1..];
      var rest := SplitBy(tail, isSep);
      var seps := Separators(tail, isSep);
      SplitRebuilds(tail, isSep);
      SeparatorsCons(c, tail, isSep);
      assert s == [c] + tail;
      if isSep(c) {
        var parts := [""] + rest;
        assert SplitBy(s, isSep) == parts;
        assert Separators(s, isSep) == [c] + seps;
        assert parts[1..] == rest && ([c] + seps)[1..] == seps;
        assert Interleave(parts, [c] + seps) == "" + [c] + Interleave(rest, seps);
      } else {
        assert SplitBy(s, isSep) == [[c] + rest[0]] + rest[1..];
        assert Separators(s, isSep) == seps;
        InterleaveFront([c], rest, seps);
      }
    }
  }

  /** A separator-free word glued to the front of a text joins its first
      piece. */
  lemma {:induction false} SplitPrefixWord(w: string, t: string, isSep: char -> bool)
    requires forall j :: 0 <= j < |w| ==> !isSep(w[j])
    ensures SplitBy(w + t, isSep) == [w + SplitBy(t, isSep)[0]] + SplitBy(t, isSep)[1..]
    decreases |w|
  {
    if |w| > 0 {
      assert (w + t)[1..] == w[1..] + t;
      SplitPrefixWord(w[1..], t, isSep);
      assert [w[0]] + (w[1..] + SplitBy(t, isSep)[0]) == w + SplitBy(t, isSep)[0];
    } else {
      assert w + t == t;
      assert w + SplitBy(t, isSep)[0] == SplitBy(t, isSep)[0];
      assert [SplitBy(t, isSep)[0]] + SplitBy(t, isSep)[1..] == SplitBy(t, isSep);
    }
  }

  /** Conversely, pieces free of separators that are put together with
      separator characters split back into exactly those pieces. */
  lemma {:induction false} InterleaveSplits(parts: seq<string>, seps: string, isSep: char -> bool)
    requires |parts| == |seps| + 1
    requires forall i, j :: 0 <= i < |parts| && 0 <= j < |parts[i]| ==> !isSep(parts[i][j])
    requires forall i :: 0 <= i < |seps| ==> isSep(seps[i])
    ensures SplitBy(Interleave(parts, seps), isSep) == parts
    decreases |seps|
  {
    if |seps| == 0 {
      SplitPrefixWord(parts[0], "", isSep);
      assert parts[0] + "" == parts[0];
      assert SplitBy("", isSep) == [""];
      assert parts == [parts[0] + ""] + [""][1..];
    } else {
      var tail := Interleave(parts[1..], seps[1..]);
      InterleaveSplits(parts[1..], seps[1..], isSep);
      assert parts[0] + [seps[0]] + tail == parts[0] + ([seps[0]] + tail);
      SplitPrefixWord(parts[0], [seps[0]] + tail, isSep);
      assert ([seps[0]] + tail)[1..] == tail;
      var rest := [seps[0]] + tail;
      assert SplitBy(rest, isSep) == [""] + parts[1..];
      assert Interleave(parts, seps) == parts[0] + rest;
      assert SplitBy(parts[0] + rest, isSep) == [parts[0] + ""] + parts[1..];
      assert parts[0] + "" == parts[0];
      assert parts == [parts[0]] + parts[1..];
    }
  }

  /** Text without separator characters is a single piece. */
  lemma SplitNoSeparator(s: string, isSep: char -> bool)
    requires forall j :: 0 <= j < |s| ==> !isSep(s[j])
    ensures SplitBy(s, isSep) == [s]
  {
    InterleaveSplits([s], "", isSep);
  }

  /** Pieces free of the separator, joined with it, split back into the same
      pieces. */
  lemma JoinSplits(xs: seq<string>, sep: char, isSep: char -> bool)
    requires |xs| > 0 && isSep(sep)
    requires forall i, j :: 0 <= i < |xs| && 0 <= j < |xs[i]| ==> !isSep(xs[i][j])
    ensures SplitBy(Join(xs, sep), isSep) == xs
  {
    InterleaveSplits(xs, seq(|xs| - 1, _ => sep), isSep);
  }

  // ---------------------------------------------------------------------
  // Removing occurrences
  // ---------------------------------------------------------------------

  /** `pat` occurs in `s` at offset `i`. */
  ghost predicate OccursAt(pat: string, s: string, i: int) {
    0 <= i && i + |pat| <= |s| && s[i..i + |pat|] == pat
  }

  /** `pat` occurs somewhere in `s`. */
  ghost predicate Occurs(pat: string, s: string) {
    exists i :: OccursAt(pat, s, i)
  }

  /** `replacingOccurrences(of: pat, with: "")`: scanning left to right, each
      occurrence of `pat` that does not overlap an earlier one is deleted.
      The text left behind is not scanned again. */
  function RemoveOccurrences(s: string, pat: string): (r: string)
    ensures |r| <= |s|
    ensures forall i :: 0 <= i < |r| ==> r[i] in s
    decreases |s|
  {
    if |pat| == 0 || |s| == 0 then s
    else if pat <= s then
      var r := RemoveOccurrences(s[|pat|..], pat);
      assert forall i :: 0 <= i < |r| ==> r[i] in s by {
        forall i | 0 <= i < |r| ensures r[i] in s {
          var k :| 0 <= k < |s[|pat|..]| && s[|pat|..][k] == r[i];
          assert s[|pat| + k] == r[i];
        }
      }
      r
    else
      var r := RemoveOccurrences(s[1..], pat);
      assert forall i :: 0 <= i < |r| ==> r[i] in s by {
        forall i | 0 <= i < |r| ensures r[i] in s {
          var k :| 0 <= k < |s[1..]| && s[1..][k] == r[i];
          assert s[1 + k] == r[i];
        }
      }
      [s[0]] + r
  }

  /** Text in which `pat` does not occur is left unchanged. */
  lemma {:induction false} RemoveAbsent(s: string, pat: string)
    requires !Occurs(pat, s)
    ensures RemoveOccurrences(s, pat) == s
    decreases |s|
  {
    if |pat| > 0 && |s| > 0 {
      assert !(pat <= s) by {
        assert pat <= s ==> OccursAt(pat, s, 0);
      }
      assert !Occurs(pat, s[1..]) by {
        forall i | OccursAt(pat, s[1..], i) ensures OccursAt(pat, s, i + 1) {
          assert s[1..][i..i + |pat|] == s[i + 1..i + 1 + |pat|];
        }
      }
      {
        RemoveAbsent(s[1..], pat);
        assert [s[0]] + s[1..] == s;
      }
    }
  }

  /** A first character at which `pat` does not start is kept. */
  lemma RemoveKeepsFirst(s: string, pat: string)
    requires |pat| > 0 && |s| > 0 && !(pat <= s)
    ensures RemoveOccurrences(s, pat) == [s[0]] + RemoveOccurrences(s[1..], pat)
  {
  }

  /** Characters at which `pat` does not start are kept, in order. */
  lemma {:induction false} RemoveKeepsPrefix(w: string, t: string, pat: string)
    requires |pat| > 0
    requires forall i :: 0 <= i < |w| ==> !(pat <= (w + t)[i..])
    ensures RemoveOccurrences(w + t, pat) == w + RemoveOccurrences(t, pat)
    decreases |w|
  {
    if |w| == 0 {
      assert w + t == t;
    } else {
      var s, w' := w + t, w[1..];
      assert !(pat <= s) by {
        assert s[0..] == s;
      }
      RemoveKeepsFirst(s, pat);
      assert s[1..] == w' + t;
      forall i | 0 <= i < |w'| ensures !(pat <= (w' + t)[i..]) {
        assert (w' + t)[i..] == s[i + 1..];
      }
      RemoveKeepsPrefix(w', t, pat);
      var rt := RemoveOccurrences(t, pat);
      assert RemoveOccurrences(s, pat) == [s[0]] + (w' + rt);
      assert [w[0]] + (w' + rt) == w + rt by {
        assert [w[0]] + w' == w;
      }
    }
  }

  /** An occurrence of `pat` at the front is deleted. */
  lemma RemoveLeading(t: string, pat: string)
    requires |pat| > 0
    ensures RemoveOccurrences(pat + t, pat) == RemoveOccurrences(t, pat)
  {
    assert (pat + t)[|pat|..] == t;
  }
}

=== FILE: wrappers.dfy ===
/** Optional values and success/failure results, the two shapes the client
    uses for "maybe absent" (Swift optionals) and "value or error" (Swift
    `Result` and `throws`). */
module Wrappers {

  datatype Option<+T> = None | Some(value: T)

  datatype Result<+R, +E> = Success(value: R) | Failure(error: E)
}
